=== FILE: README.md ===
# Target_copy checkpoint engine

`Target_copy` is the checkpointer half of the Genode real-time checkpoint/restore
component (rtcr). It keeps a copy of a target component between checkpoints.
A `checkpoint()` does three things:

- it records the target's threads;
- it logs that capability copying is not implemented;
- it brings three groups of region copies up to date: the stack area, the linker
  area and the address space.

For every group, `_copy_region_map` works in three passes:

- it deletes the copies whose attached region is gone;
- it creates a copy (a fresh RAM dataspace) for every newly attached region,
  skipping the stack and linker area dataspaces that are attached inside the
  address space;
- it fills every copy from its region. A plain dataspace is copied whole. For a
  managed dataspace, only the designated pieces flagged `attached` are copied,
  and their flags are then cleared (a differential copy).

The model works on immutable values:

- Genode's intrusive lists are sequences in list order, head first. `insert`
  puts an entry in front.
- `find_by_cap_and_addr` returns the first entry with a given key. A key is the
  dataspace together with the relative address.
- The target's dataspace contents are a map from capability to bytes, which the
  checkpoint reads.
- The checkpointer's RAM session is a map of its own plus the next capability it
  hands out.
- The set of managed dataspaces is a registry from capability to the list of its
  designated pieces.

Modules:

- `Types`: the records.
- `Dataspace`: the RAM session and the byte copy.
- `RegionDiff`: the delete and create passes.
- `RegionCopy`: the copy pass.
- `RegionMap`: one `_copy_region_map`.
- `Threads`: `_copy_threads`.
- `TargetCopy`: `_copy_region_maps` and `checkpoint`.

The source has three defects, listed under "## Findings". Each is modelled as
written and shown to go wrong. Everywhere else the model uses the corrected
behaviour:

- the create loop moves past a skipped entry;
- a region without a copy is reported and skipped;
- a deleted copy's dataspace is released.

## Model

| member | source | states |
|---|---|---|
| Dataspace.Alloc | src/rtcr/target_copy.cc:132 | the new dataspace is zero-filled at the requested size, under a capability no live dataspace carries, and every other dataspace is untouched |
| Dataspace.Free | src/rtcr/target_copy.cc:96-97 | releasing a set of dataspaces removes exactly those from the RAM session, leaves every other dataspace and its bytes as they were, does not move the counter and keeps handles fresh |
| Dataspace.CopyDataspace | src/rtcr/target_copy.cc:192-202 | the first `size` source bytes land at `dest_offset` in the destination; every other byte, and every other dataspace, is unchanged; lengths are kept |
| RegionDiff.FindAttached | src/rtcr/target_copy.cc:79-80 | the index found is the first attached entry with the key, and None exactly when no entry has it |
| RegionDiff.FindCopy | src/rtcr/target_copy.cc:114-115 | the index found is the first copy with the key, and None exactly when no copy has it |
| RegionDiff.FindCopyUnique | src/rtcr/target_copy.cc:151 | with one copy per key, the lookup finds the one copy carrying the key |
| RegionDiff.DeleteStale | src/rtcr/target_copy.cc:69-90 | a copy survives the delete pass exactly when its region is still attached; the list never grows |
| RegionDiff.DeleteStaleAppend | src/rtcr/target_copy.cc:73-89 | the delete pass works entry by entry and keeps the relative order of the survivors |
| RegionDiff.DeleteStaleKeepsMatched | src/rtcr/target_copy.cc:79-86 | when every copy still has its region, the delete pass returns the list unchanged |
| RegionDiff.DeleteStaleUnique | src/rtcr/target_copy.cc:69-90 | deleting keeps the keys of the copies unique |
| RegionDiff.DeleteStaleDistinct | src/rtcr/target_copy.cc:69-90 | deleting keeps the copies' backing dataspaces distinct |
| RegionDiff.DeleteAsWritten | src/rtcr/target_copy.cc:69-98 | the delete pass as written keeps exactly the copies whose region is still attached, and the RAM session keeps every dataspace it held, dropped copies' included |
| RegionDiff.DeleteAsWrittenLeaks | src/rtcr/target_copy.cc:93-98 | as written, a deleted copy's dataspace stays allocated while no remaining copy refers to it |
| RegionDiff.DeleteStaleFreeing | src/rtcr/target_copy.cc:93-98 | the corrected delete keeps exactly the survivors, does not move the allocation counter and keeps handles fresh |
| RegionDiff.DeleteStaleFreeingAccounts | src/rtcr/target_copy.cc:93-98 | after the corrected delete, no dropped copy's dataspace is allocated, every survivor's still is, and the memory the list does not own is the same set with the same bytes |
| RegionDiff.DeleteStaleFreeingNoop | src/rtcr/target_copy.cc:75-89 | a list whose every copy still has its region is left as it is, memory included |
| RegionDiff.CreateCopiedRegion | src/rtcr/target_copy.cc:128-140 | one copy with the region's key, flagged managed exactly when the region's dataspace is managed, backed by a fresh zero-filled dataspace of the region's size; nothing else allocated or changed |
| RegionDiff.CreateFrom | src/rtcr/target_copy.cc:101-125 | the create pass only allocates: the counter does not go down, handles stay fresh and every existing dataspace keeps its bytes |
| RegionDiff.CreateMissing | src/rtcr/target_copy.cc:101-125 | the corrected create pass gives every attached entry that is not a stack or linker area a copy, keeps the old list intact behind the new copies, and does not move the counter back |
| RegionDiff.CreateCovers | src/rtcr/target_copy.cc:106-124 | after the create pass, every attached entry that is not a stack or linker area has a copy |
| RegionDiff.CreateNewCopies | src/rtcr/target_copy.cc:114-139 | every copy the pass inserts belongs to a non-reserved attached entry, is flagged managed exactly when its dataspace is managed, and is backed by a dataspace allocated during the pass and zero-filled at the entry's size |
| RegionDiff.CreateKeepsUnique | src/rtcr/target_copy.cc:114-121 | the create pass never gives two copies the same key |
| RegionDiff.CreateKeepsInvariants | src/rtcr/target_copy.cc:101-125 | the create pass keeps backing dataspaces allocated and distinct, and leaves the memory outside the list's dataspaces as it was |
| RegionDiff.CreateCopiedRegionKeeps | src/rtcr/target_copy.cc:128-140 | one insertion keeps backing dataspaces allocated and distinct and changes nothing outside the list |
| RegionDiff.CreateNoop | src/rtcr/target_copy.cc:114-121 | when every non-reserved entry has a copy, the create pass inserts and allocates nothing |
| RegionDiff.CreateStepAsWritten | src/rtcr/target_copy.cc:106-124 | one iteration of the create loop as written: on a stack or linker area entry the state does not change at all; on any other entry the cursor advances and the entry has a copy afterwards |
| RegionDiff.RunCreateAsWritten | src/rtcr/target_copy.cc:106-124 | the create loop as written, run for a bounded number of iterations: whenever it leaves the loop, no stack or linker area entry lay ahead of the starting cursor |
| RegionDiff.CreateAsWrittenHangs | src/rtcr/target_copy.cc:106-110 | as written, once a stack or linker area entry lies ahead of the cursor, no number of iterations leaves the loop |
| RegionDiff.CreateAsWrittenAgrees | src/rtcr/target_copy.cc:106-124 | without reserved entries ahead, the loop as written finishes, after one iteration per entry, with the corrected pass's result |
| RegionDiff.CreateStepAgrees | src/rtcr/target_copy.cc:111-124 | one iteration of the loop as written on an entry that is not reserved leaves the same list and RAM session as the corrected pass does for that entry |
| RegionDiff.Reconcile | src/rtcr/target_copy.cc:59-62 | after delete then create, every non-reserved attached entry has a copy, every copy whose region is still attached is kept, and the counter does not move back |
| RegionDiff.ReconcileShape | src/rtcr/target_copy.cc:58-62 | after delete and create, the list is the new copies (each satisfying NewCopy) in front of the survivors, and every copy matches an attached entry |
| RegionDiff.ReconcileEstablishes | src/rtcr/target_copy.cc:58-62 | after delete and create, the copy list matches the attached list: one copy per key, one for every non-reserved entry, none for a reserved area, none without an entry |
| RegionDiff.ReconcileIdempotent | src/rtcr/target_copy.cc:58-62 | running delete and create a second time against the same attached list changes nothing |
| RegionCopy.CopyPieces | src/rtcr/target_copy.cc:176-188 | the loop over the pieces writes only the destination dataspace, keeps every length, and leaves every byte outside the flagged pieces unchanged |
| RegionCopy.CopyManaged | src/rtcr/target_copy.cc:173-189 | the managed copy leaves every piece unflagged and otherwise unchanged, writes only the destination and only inside flagged pieces |
| RegionCopy.CopyPiecesCopiesFlagged | src/rtcr/target_copy.cc:180-185 | when the flagged pieces do not overlap, each flagged piece from index `i` on ends up holding its source bytes at its offset in the destination |
| RegionCopy.CopyManagedCopiesFlagged | src/rtcr/target_copy.cc:179-185 | when the flagged pieces do not overlap, every piece that was flagged holds its source bytes at its offset in the destination after the managed copy |
| RegionCopy.CopyRegion | src/rtcr/target_copy.cc:155-166 | copying one region keeps every dataspace's length and the registry's layout, and writes only that region's copy |
| RegionCopy.CopyReadyStable | src/rtcr/target_copy.cc:155-165 | whether a region can be copied depends only on dataspace lengths and piece layout, so it survives the copies of other regions |
| RegionCopy.CopyPass | src/rtcr/target_copy.cc:143-170 | the copy pass keeps lengths and layout, writes only dataspaces of the group's copies, and reports a key exactly when an attached entry has it and no copy does |
| RegionCopy.CopyPassLeaves | src/rtcr/target_copy.cc:147-168 | a dataspace that is no region's copy keeps its bytes through the pass |
| RegionCopy.CopyPassKeepsRegistry | src/rtcr/target_copy.cc:155-165 | the pass leaves the registry entry of a managed dataspace exactly as it was when no region of the group on that dataspace has a copy: only the managed copy of a region clears flags |
| RegionCopy.CopyPassCopiesPlain | src/rtcr/target_copy.cc:162-166 | after the pass, a plain region's copy holds the region's bytes |
| RegionCopy.CopyPassCopiesManaged | src/rtcr/target_copy.cc:157-161 | after the pass, a managed region's copy holds, at the offset of every piece flagged before the pass, that piece's bytes |
| RegionCopy.CopyPassKeepsUnflagged | src/rtcr/target_copy.cc:179-185 | a managed dataspace with no flagged piece stays that way through the pass |
| RegionCopy.CopyPassClearsFlags | src/rtcr/target_copy.cc:184 | after the pass, no piece of a copied managed region is flagged, so the next checkpoint copies only what is marked after it |
| RegionCopy.CopyPassAsWrittenOutcome | src/rtcr/target_copy.cc:151-165 | as written, the pass is undefined as soon as one attached region lacks a copy; otherwise it equals the corrected pass, which then reports nothing |
| RegionCopy.CopyPassAsWritten | src/rtcr/target_copy.cc:143-170 | the copy pass as written: when it is defined, every attached region had a copy, and lengths and registry layout are kept |
| RegionMap.SyncRegionMap | src/rtcr/target_copy.cc:56-66 | one group's `_copy_region_map` keeps handles fresh, does not move the allocation counter back and keeps the registry's layout |
| RegionMap.SyncEstablishes | src/rtcr/target_copy.cc:56-66 | afterwards, the group's copies match its attached list and the group is ready for the next checkpoint |
| RegionMap.SyncMissing | src/rtcr/target_copy.cc:151-152 | a key is reported as having no copy exactly when it belongs to a stack or linker area attached into the group |
| RegionMap.SyncFrame | src/rtcr/target_copy.cc:56-66 | no dataspace outside the group is released or changed, and each of the group's dataspaces is either one it had or one allocated during the call |
| RegionMap.SyncNoLeak | src/rtcr/target_copy.cc:58-62 | what the RAM session holds beyond the group's own dataspaces is the same before and after |
| RegionMap.SyncStable | src/rtcr/target_copy.cc:56-66 | against an attached list the group already matches, the copy list stays as it is and nothing is allocated or released |
| RegionMap.SyncCopiesPlain | src/rtcr/target_copy.cc:64-65 | afterwards, every plain non-reserved region has a copy holding the region's bytes |
| RegionMap.SyncHoldsPlain | src/rtcr/target_copy.cc:162-166 | after one `_copy_region_map`, a plain non-reserved region has a copy, at least as large as the region, whose first `size` bytes are the region's bytes |
| RegionMap.SyncClearsFlags | src/rtcr/target_copy.cc:157-161 | after one `_copy_region_map`, no piece of a copied managed region is flagged |
| RegionMap.SyncCopiesManaged | src/rtcr/target_copy.cc:157-161 | after one `_copy_region_map`, a managed region's copy holds, at the offset of every piece flagged before the call, that piece's bytes, when the pieces do not overlap and no earlier region of the group attaches the same dataspace |
| RegionMap.SyncKeepsUnflagged | src/rtcr/target_copy.cc:179-185 | `_copy_region_map` only ever clears flags: a managed dataspace with no flagged piece stays that way |
| RegionMap.SyncKeepsRegistry | src/rtcr/target_copy.cc:56-66 | one `_copy_region_map` leaves the registry entry of a managed dataspace exactly as it was when only reserved entries of the group, or none, are on it |
| RegionMap.SyncCopied | src/rtcr/target_copy.cc:64-65 | after one `_copy_region_map`, every non-reserved region of the group has been copied: a plain region's copy holds its bytes, and a managed region has no flagged piece |
| RegionMap.SyncKeepsCopied | src/rtcr/target_copy.cc:56-66 | one group's `_copy_region_map` keeps another group copied, as long as the other group's copy dataspaces are none of this group's own |
| RegionMap.SyncAsWrittenUndefined | src/rtcr/target_copy.cc:151-165 | a group with a stack or linker area attached cannot be copied by the code as written: the copy pass meets that entry without a copy |
| TargetCopy.CopyRegionMaps | src/rtcr/target_copy.cc:34-44 | the three groups, processed in order on one RAM session, keep handles fresh and do not move the allocation counter back |
| TargetCopy.RegionMapsDrawInOrder | src/rtcr/target_copy.cc:36-43 | each group's dataspaces afterwards are its own from before or new ones from the allocation range of its own turn, stack area first |
| TargetCopy.RegionMapsAllocationOrder | src/rtcr/target_copy.cc:36-43 | every dataspace the stack area gains is allocated earlier (by the model's handle counter) than every one the linker area gains, and those earlier than every one the address space gains |
| TargetCopy.RegionMapsEstablish | src/rtcr/target_copy.cc:34-44 | all three groups afterwards match their attached lists, and the copies are ready for the next checkpoint |
| TargetCopy.RegionMapsCopied | src/rtcr/target_copy.cc:34-44 | after all three groups, the copy of every plain non-reserved region holds the region's bytes and no managed non-reserved region keeps a flagged piece. Later groups neither overwrite earlier groups' copies nor flag their pieces again, and the registry changes only in its flags |
| TargetCopy.RegionMapsNoLeak | src/rtcr/target_copy.cc:34-44 | what the RAM session holds beyond the copies' own dataspaces is the same before and after |
| TargetCopy.RegionMapsKeepBytes | src/rtcr/target_copy.cc:34-44 | every RAM dataspace that is none of the snapshot's copies keeps all its bytes through the three groups |
| TargetCopy.RegionMapsKeepRegistry | src/rtcr/target_copy.cc:34-44 | the registry entry of a managed dataspace that no group copies is exactly as it was after the three groups |
| TargetCopy.RegionMapsMissing | src/rtcr/target_copy.cc:34-44 | a key is reported exactly when a stack or linker area with that key is attached into one of the groups |
| TargetCopy.RegionMapsIdempotent | src/rtcr/target_copy.cc:34-44 | a second pass over an unchanged target keeps all three copy lists, allocates nothing and releases nothing |
| TargetCopy.Diagnostics | src/rtcr/target_copy.cc:152 | one error per unmatched key, in order, naming the key's dataspace: a dataspace is named exactly when some reported key is on it, and the capability message is not among them |
| TargetCopy.ReservedKey | src/rtcr/target_copy.cc:34-44 | a stack or linker area entry on a dataspace, attached into any group, is among the keys reported on that dataspace |
| TargetCopy.CheckpointLog | src/rtcr/target_copy.cc:26-29 | the log holds the capability stub's message once, and names exactly the dataspaces of the stack and linker areas attached into some group |
| TargetCopy.Checkpoint | src/rtcr/target_copy.cc:223-234 | the thread list gains the target's threads, reversed, in front; all three groups match their attached lists; every plain non-reserved region's copy holds the region's bytes; no copied managed region keeps a flagged piece, and the registry changes only in its flags; the snapshot is ready for the next checkpoint; nothing is leaked, and every other RAM dataspace keeps its bytes; the registry entry of a managed dataspace that no group copies stays as it was; the log starts with the stub message and names exactly the dataspaces of the regions without a copy |
| Threads.Reverse | src/rtcr/target_copy.cc:14-20 | reference for head insertion: same length, element `i` is the `i`-th from the end |
| Threads.CopyThreads | src/rtcr/target_copy.cc:12-21 | the copied thread list afterwards is the target's threads, reversed, in front of the old list |
| Threads.ReversePermutes | src/rtcr/target_copy.cc:14-20 | head insertion copies every thread exactly once: the reversed list is a permutation |
| Threads.CheckpointTwiceDuplicates | src/rtcr/target_copy.cc:12-21 | nothing is merged or removed: after two checkpoints of the same threads, each thread appears twice more than before |

## Left out

- The lock guard (line 225): a checkpoint is one atomic step here; concurrency with the target's threads is not modelled, so the target's memory does not change during a checkpoint.
- The `rm().attach`/`detach` calls in `_copy_dataspace` (lines 195-201): the model reads and writes dataspace contents directly.
- Allocation failure of `ram().alloc` (line 132) and of the heap allocator (lines 17, 138): allocation always succeeds.
- The heap objects themselves (`new`, `destroy`, lines 17, 97, 138): list entries are values.
- The constructor (lines 205-221): its wiring becomes the fields of `TargetCopy.Target`.
- The text of `Genode::log` and `Genode::error` (lines 28, 152): each message is a `Diagnostic` value. The error at line 152 names only the region's dataspace, so two regions of one dataspace give two equal entries.
- `_copy_capabilities` (lines 26-29): it only logs, and so does the model.
- `managed_dataspace(_ram_dataspace_infos)` (lines 135, 155): a region is managed exactly when its dataspace is in the registry. The RAM-session bookkeeping behind that lookup is not modelled.
- Machine integer widths (`size_t`, `off_t`, addresses): sizes and offsets are unbounded naturals.
- The test driver src/test/rtcr_target_copy/main.cc: it starts the child, sleeps, logs the address-space regions and sleeps forever. The line that would construct a `Target_copy` (line 45) is commented out, and nothing in the driver calls `checkpoint`.
- Dataspace.CopyDataspace: a raw `memcpy` out of range is undefined, so the model requires the source and destination to be large enough rather than modelling the overrun.
- RegionMap.GroupReady: the checkpoint requires every attached region to be backed by target memory and every existing copy to be as large as its region. The source assumes this without checking it, and the model does not model the overrun when it fails.
- TargetCopy.Consistent: the three groups must not share a copy dataspace. The source keeps them in separate lists and never shares one.
- RegionCopy.CopyPassCopiesManaged: states the copied content only when the flagged pieces of the dataspace do not overlap and no earlier region of the group attaches the same managed dataspace. Otherwise the earlier copy has already cleared the flags, and later pieces may overwrite earlier ones.
- RegionCopy.CopyPass: its own contract has no registry frame. The frame (an entry of a dataspace the pass does not reach stays as it was) is the lemma RegionCopy.CopyPassKeepsRegistry, because inside the recursive function's contract it makes the verifier's proofs about the pass too large.
- RegionMap.SyncRegionMap: its own contract has no frame either. The registry frame is RegionMap.SyncKeepsRegistry and the RAM frame is RegionMap.SyncFrame, for the same reason.
- TargetCopy.Checkpoint: for a managed region it states only that no piece is left flagged, not the bytes of its copy. The copied bytes of managed pieces are stated per group by RegionMap.SyncCopiesManaged, under that lemma's conditions.
- RegionMap.SyncCopied: for a managed region it states only that no piece is left flagged. The bytes of its copy are stated by RegionMap.SyncCopiesManaged, which needs non-overlapping pieces and no earlier region of the group on the same dataspace.
- TargetCopy.RegionMapsCopied: for a managed region it states only that no piece is left flagged, for the same reason as RegionMap.SyncCopied; the bytes are stated per group by RegionMap.SyncCopiesManaged.
- RegionMap.SyncCopiesPlain: states the content after one `_copy_region_map` for plain regions only. The managed content is stated by RegionMap.SyncCopiesManaged.

## Findings

| source | as written | input that shows it | evidently intended | confidence | as-written member | corrected member |
|---|---|---|---|---|---|---|
| src/rtcr/target_copy.cc:108-110 | on a stack or linker area entry, `continue` goes back to the loop test before `orig_info = next` (line 123), so the same entry is tested again forever | an address space whose attached list contains the stack area dataspace | skip to the next attached entry | high, not executed | RegionDiff.CreateAsWrittenHangs | RegionDiff.CreateCovers |
| src/rtcr/target_copy.cc:151-165 | `copy_infos.first()` is dereferenced even when the list is empty. A missing copy is logged at line 152 and then dereferenced at line 160 or 165 | an address space with the stack area attached: the create pass (fixed as above) skips it, so it has no copy when the copy pass reaches it | report the missing copy and skip the region | high, not executed | RegionCopy.CopyPassAsWrittenOutcome | RegionMap.SyncMissing |
| src/rtcr/target_copy.cc:93-98 | deleting a copy destroys its record but never frees its `copy_ds_cap` | a region that is detached between two checkpoints | release the copy dataspace with the record | high, not executed | RegionDiff.DeleteAsWrittenLeaks | RegionDiff.DeleteStaleFreeingAccounts |

=== FILE: dataspace.dfy ===
/** The memory collaborator: the checkpointer's own RAM session (allocation
    and release of copy dataspaces) and the byte copy `_copy_dataspace`
    performs while both dataspaces are temporarily attached. */
module Dataspace {
  import opened Types

  /** The checkpointer's RAM session: the dataspaces it has allocated and
      the next capability it hands out. */
  datatype Ram = Ram(mem: Memory, next: Cap)

  /** Every allocated capability lies below `next`, so `next` is fresh. */
  ghost predicate Fresh(ram: Ram) {
    forall c :: c in ram.mem ==> c < ram.next
  }

  function Zeros(n: nat): (z: seq<Byte>)
    ensures |z| == n
    ensures forall i :: 0 <= i < n ==> z[i] == 0
  {
    seq(n, _ => 0)
  }

  datatype Allocation = Allocation(cap: Cap, ram: Ram)

  /** `_env.ram().alloc(size)`: a new zero-filled dataspace under a handle
      no live dataspace carries. Exhaustion is not modelled. */
  function Alloc(ram: Ram, size: nat): (a: Allocation)
    ensures Fresh(ram) ==> a.cap !in ram.mem && Fresh(a.ram)
    ensures ram.next <= a.cap < a.ram.next
    ensures a.ram.mem.Keys == ram.mem.Keys + {a.cap}
    ensures a.ram.mem[a.cap] == Zeros(size)
    ensures forall c :: c in ram.mem && c != a.cap ==> a.ram.mem[c] == ram.mem[c]
  {
    Allocation(ram.next, Ram(ram.mem[ram.next := Zeros(size)], ram.next + 1))
  }

  /** `_env.ram().free(cap)` for every capability in `caps`. */
  function Free(ram: Ram, caps: set<Cap>): (r: Ram)
    ensures forall c :: c in r.mem <==> c in ram.mem && c !in caps
    ensures forall c :: c in r.mem ==> r.mem[c] == ram.mem[c]
    ensures r.next == ram.next
    ensures Fresh(ram) ==> Fresh(r)
  {
    Ram(ram.mem - caps, ram.next)
  }

  /** The two memories hold the same dataspaces with the same lengths. */
  ghost predicate SameShape(m: Memory, m': Memory) {
    m.Keys == m'.Keys && forall c :: c in m ==> |m'[c]| == |m[c]|
  }

  /** `_copy_dataspace(source, dest, size, dest_offset)`: the first `size`
      bytes of `src` land at `offset` in dataspace `dst`. Out-of-range
      copies are undefined in the source (a raw memcpy), hence the
      requires. */
  function CopyDataspace(src: seq<Byte>, mem: Memory, dst: Cap, size: nat, offset: nat): (r: Memory)
    requires dst in mem
    requires size <= |src|
    requires offset + size <= |mem[dst]|
    ensures SameShape(mem, r)
    ensures forall c :: c in mem && c != dst ==> r[c] == mem[c]
    ensures forall i :: 0 <= i < size ==> r[dst][offset + i] == src[i]
    ensures forall i :: 0 <= i < |mem[dst]| && !(offset <= i < offset + size) ==>
      r[dst][i] == mem[dst][i]
  {
    var d := mem[dst];
    mem[dst := d[..offset] + src[..size] + d[offset + size..]]
  }
}

=== FILE: region_copy.dfy ===
/** The copy half of `_copy_region_map`: `_copy_dataspaces`, which fills
    every copy from its source region, whole for plain regions and piece by
    piece for managed ones (`_copy_managed_dataspace`). */
module RegionCopy {
  import opened Types
  import opened Dataspace
  import opened RegionDiff

  /** A designated dataspace whose bytes exist in the target and whose place
      lies inside a destination of `limit` bytes. */
  ghost predicate Fits(dd: DesignatedDataspace, target: Memory, limit: nat) {
    dd.ds in target && dd.size <= |target[dd.ds]| && dd.relAddr + dd.size <= limit
  }

  /** The bytes a region is copied from exist: its own dataspace when it is
      plain, every piece when it is managed. */
  ghost predicate Backed(o: AttachedRegion, target: Memory, reg: Registry) {
    if o.ds in reg then
      forall k :: 0 <= k < |reg[o.ds].dds| ==> Fits(reg[o.ds].dds[k], target, o.size)
    else
      o.ds in target && o.size <= |target[o.ds]|
  }

  /** What the copy of one attached region needs: a backed source and, when
      a copy is found, an allocated destination at least as large. */
  ghost predicate CopyReady(o: AttachedRegion, copies: seq<CopiedRegion>, target: Memory,
                            mem: Memory, reg: Registry) {
    && Backed(o, target, reg)
    && match FindCopy(copies, o.Key())
       case None => true
       case Some(i) => copies[i].copyDs in mem && o.size <= |mem[copies[i].copyDs]|
  }

  /** The registries hold the same managed dataspaces with the same pieces;
      only `attached` flags may differ. */
  ghost predicate SameLayout(reg: Registry, reg': Registry) {
    && reg.Keys == reg'.Keys
    && forall d :: d in reg ==>
         && |reg'[d].dds| == |reg[d].dds|
         && forall k :: 0 <= k < |reg[d].dds| ==>
           reg'[d].dds[k].(attached := false) == reg[d].dds[k].(attached := false)
  }

  /** Clearing flags in several steps still only clears flags. */
  lemma SameLayoutTransitive(reg: Registry, reg': Registry, reg'': Registry)
    requires SameLayout(reg, reg') && SameLayout(reg', reg'')
    ensures SameLayout(reg, reg'')
  {
  }

  /** Byte `p` of the destination lies in a piece at index `i` or later
      that is flagged for copying. */
  ghost predicate CoveredFrom(dds: seq<DesignatedDataspace>, i: nat, p: int) {
    exists k :: i <= k < |dds| && dds[k].attached &&
      dds[k].relAddr <= p < dds[k].relAddr + dds[k].size
  }

  /** The flagged pieces do not overlap. */
  ghost predicate Disjoint(dds: seq<DesignatedDataspace>) {
    forall k, l :: 0 <= k < l < |dds| && dds[k].attached && dds[l].attached ==>
      dds[k].relAddr + dds[k].size <= dds[l].relAddr ||
      dds[l].relAddr + dds[l].size <= dds[k].relAddr
  }

  /** The loop of `_copy_managed_dataspace` from piece `i` on: each flagged
      piece is copied to its place in the destination `dst`. */
  function CopyPieces(dds: seq<DesignatedDataspace>, i: nat, dst: Cap, target: Memory,
                      mem: Memory): (r: Memory)
    requires i <= |dds|
    requires dst in mem
    requires forall l :: 0 <= l < |dds| ==> Fits(dds[l], target, |mem[dst]|)
    ensures SameShape(mem, r)
    ensures forall c :: c in mem && c != dst ==> r[c] == mem[c]
    ensures forall p :: 0 <= p < |mem[dst]| && !CoveredFrom(dds, i, p) ==> r[dst][p] == mem[dst][p]
    decreases |dds| - i
  {
    if i == |dds| then mem
    else
      assert Fits(dds[i], target, |mem[dst]|);
      var mem1 := if dds[i].attached then CopyDataspace(target[dds[i].ds], mem, dst, dds[i].size,
                                                        dds[i].relAddr) else mem;
      CopyPieces(dds, i + 1, dst, target, mem1)
  }

  datatype ManagedCopy = ManagedCopy(mem: Memory, dds: seq<DesignatedDataspace>)

  /** `_copy_managed_dataspace`: the flagged pieces are copied and every
      piece leaves unflagged (`detach`); nothing outside the flagged pieces
      of the destination changes. */
  function CopyManaged(dds: seq<DesignatedDataspace>, dst: Cap, target: Memory,
                       mem: Memory): (r: ManagedCopy)
    requires dst in mem
    requires forall k :: 0 <= k < |dds| ==> Fits(dds[k], target, |mem[dst]|)
    ensures |r.dds| == |dds|
    ensures forall k :: 0 <= k < |dds| ==> r.dds[k] == dds[k].(attached := false)
    ensures SameShape(mem, r.mem)
    ensures forall c :: c in mem && c != dst ==> r.mem[c] == mem[c]
    ensures forall p :: 0 <= p < |mem[dst]| && !CoveredFrom(dds, 0, p) ==>
      r.mem[dst][p] == mem[dst][p]
  {
    ManagedCopy(CopyPieces(dds, 0, dst, target, mem),
                seq(|dds|, k requires 0 <= k < |dds| => dds[k].(attached := false)))
  }

  /** A byte of a flagged piece is covered by no later piece. */
  lemma LaterNotCovering(dds: seq<DesignatedDataspace>, k: nat, b: nat)
    requires k < |dds| && Disjoint(dds) && dds[k].attached && b < dds[k].size
    ensures !CoveredFrom(dds, k + 1, dds[k].relAddr + b)
  {
  }

  /** Differential copy: from piece `i` on, each flagged piece at index `k`
      ends up holding its source bytes at its place in the destination. */
  lemma {:induction false} CopyPiecesCopiesFlagged(dds: seq<DesignatedDataspace>, i: nat, dst: Cap,
                                                   target: Memory, mem: Memory,
                                                   k: nat, b: nat)
    requires i <= k < |dds|
    requires dst in mem
    requires forall l :: 0 <= l < |dds| ==> Fits(dds[l], target, |mem[dst]|)
    requires Disjoint(dds)
    requires dds[k].attached && b < dds[k].size
    ensures CopyPieces(dds, i, dst, target, mem)[dst][dds[k].relAddr + b] == target[dds[k].ds][b]
    decreases |dds| - i
  {
    assert Fits(dds[i], target, |mem[dst]|);
    var mem1 := if dds[i].attached then CopyDataspace(target[dds[i].ds], mem, dst, dds[i].size,
                                                      dds[i].relAddr) else mem;
    assert CopyPieces(dds, i, dst, target, mem) == CopyPieces(dds, i + 1, dst, target, mem1);
    if k == i {
      var p := dds[k].relAddr + b;
      assert mem1[dst][p] == target[dds[k].ds][b];
      LaterNotCovering(dds, k, b);
    } else {
      CopyPiecesCopiesFlagged(dds, i + 1, dst, target, mem1, k, b);
    }
  }

  /** After `_copy_managed_dataspace`, every piece that was flagged holds its
      source bytes at its place in the destination. */
  lemma CopyManagedCopiesFlagged(dds: seq<DesignatedDataspace>, dst: Cap, target: Memory,
                                 mem: Memory, k: nat, b: nat)
    requires dst in mem
    requires forall l :: 0 <= l < |dds| ==> Fits(dds[l], target, |mem[dst]|)
    requires Disjoint(dds)
    requires k < |dds| && dds[k].attached && b < dds[k].size
    ensures CopyManaged(dds, dst, target, mem).mem[dst][dds[k].relAddr + b] == target[dds[k].ds][b]
  {
    CopyPiecesCopiesFlagged(dds, 0, dst, target, mem, k, b);
  }

  /** Copying one region into its found copy (lines 155-166). */
  datatype Copied = Copied(mem: Memory, reg: Registry)

  function CopyRegion(o: AttachedRegion, c: CopiedRegion, target: Memory, mem: Memory,
                      reg: Registry): (r: Copied)
    requires Backed(o, target, reg)
    requires c.copyDs in mem && o.size <= |mem[c.copyDs]|
    ensures SameShape(mem, r.mem)
    ensures SameLayout(reg, r.reg)
    ensures forall x :: x in mem && x != c.copyDs ==> r.mem[x] == mem[x]
  {
    if o.ds in reg then
      var mc := CopyManaged(reg[o.ds].dds, c.copyDs, target, mem);
      Copied(mc.mem, reg[o.ds := ManagedRegionMap(mc.dds)])
    else
      Copied(CopyDataspace(target[o.ds], mem, c.copyDs, o.size, 0), reg)
  }

  /** Backing depends on the layout of the registry, not on its flags. */
  lemma BackedStable(o: AttachedRegion, target: Memory, reg: Registry, reg': Registry)
    requires Backed(o, target, reg) && SameLayout(reg, reg')
    ensures Backed(o, target, reg')
  {
    if o.ds in reg {
      var dds := reg[o.ds].dds;
      var dds' := reg'[o.ds].dds;
      forall k | 0 <= k < |dds'|
        ensures Fits(dds'[k], target, o.size)
      {
        assert dds'[k].(attached := false) == dds[k].(attached := false);
        assert Fits(dds[k], target, o.size);
      }
    }
  }

  /** CopyReady depends only on which dataspaces exist and how long they
      are, and on the layout of managed dataspaces, not on their flags. */
  lemma CopyReadyStable(o: AttachedRegion, copies: seq<CopiedRegion>, target: Memory,
                        mem: Memory, reg: Registry, mem': Memory, reg': Registry)
    requires CopyReady(o, copies, target, mem, reg)
    requires SameShape(mem, mem') && SameLayout(reg, reg')
    ensures CopyReady(o, copies, target, mem', reg')
  {
    BackedStable(o, target, reg, reg');
  }

  /** Every attached region of the group is ready to be copied. */
  ghost predicate AllReady(orig: seq<AttachedRegion>, copies: seq<CopiedRegion>, target: Memory,
                           mem: Memory, reg: Registry) {
    forall j :: 0 <= j < |orig| ==> CopyReady(orig[j], copies, target, mem, reg)
  }

  /** Copying the first region leaves the rest ready. */
  lemma AllReadyTail(orig: seq<AttachedRegion>, copies: seq<CopiedRegion>, target: Memory,
                     mem: Memory, reg: Registry, mem': Memory, reg': Registry)
    requires |orig| > 0 && AllReady(orig, copies, target, mem, reg)
    requires SameShape(mem, mem') && SameLayout(reg, reg')
    ensures AllReady(orig[1..], copies, target, mem', reg')
  {
    forall j | 0 <= j < |orig[1..]|
      ensures CopyReady(orig[1..][j], copies, target, mem', reg')
    {
      assert orig[1..][j] == orig[j + 1];
      CopyReadyStable(orig[j + 1], copies, target, mem, reg, mem', reg');
    }
  }

  /** The outcome of a copy pass: the memory, the registry with the flags of
      copied pieces cleared, and the keys of attached regions for which no
      copy was found (each reported by an error message). */
  datatype CopyResult = CopyResult(mem: Memory, reg: Registry, missing: seq<RegionKey>)

  /** No attached region of `orig` on dataspace `d` has a copy, so the copy
      pass never reaches `d`. */
  ghost predicate NotCopied(orig: seq<AttachedRegion>, copies: seq<CopiedRegion>, d: Cap) {
    forall j :: 0 <= j < |orig| && orig[j].ds == d ==> !HasCopy(copies, orig[j].Key())
  }

  /** A dataspace the pass does not reach from `orig` is not reached from
      its tail either. */
  lemma NotCopiedTail(orig: seq<AttachedRegion>, copies: seq<CopiedRegion>)
    requires |orig| > 0
    ensures forall d :: NotCopied(orig, copies, d) ==> NotCopied(orig[1..], copies, d)
  {
    forall d | NotCopied(orig, copies, d)
      ensures NotCopied(orig[1..], copies, d)
    {
      forall j | 0 <= j < |orig| - 1 && orig[1..][j].ds == d
        ensures !HasCopy(copies, orig[1..][j].Key())
      {
        assert orig[1..][j] == orig[j + 1];
      }
    }
  }

  /** `_copy_dataspaces`, with a region that has no copy reported and
      skipped. */
  function CopyPass(orig: seq<AttachedRegion>, copies: seq<CopiedRegion>, target: Memory,
                    mem: Memory, reg: Registry): (r: CopyResult)
    requires AllReady(orig, copies, target, mem, reg)
    ensures SameShape(mem, r.mem)
    ensures SameLayout(reg, r.reg)
    ensures forall x :: x in mem && x !in CapsOf(copies) ==> r.mem[x] == mem[x]
    ensures forall k :: k in r.missing <==>
      exists j :: 0 <= j < |orig| && orig[j].Key() == k && !HasCopy(copies, k)
    decreases |orig|
  {
    if |orig| == 0 then CopyResult(mem, reg, [])
    else
      var o := orig[0];
      assert CopyReady(o, copies, target, mem, reg);
      assert forall j :: 1 <= j < |orig| ==> orig[j] == orig[1..][j - 1];
      match FindCopy(copies, o.Key())
      case None =>
        var rest := CopyPass(orig[1..], copies, target, mem, reg);
        CopyResult(rest.mem, rest.reg, [o.Key()] + rest.missing)
      case Some(i) =>
        var c := CopyRegion(o, copies[i], target, mem, reg);
        assert copies[i] in copies;
        AllReadyTail(orig, copies, target, mem, reg, c.mem, c.reg);
        var rest := CopyPass(orig[1..], copies, target, c.mem, c.reg);
        CopyResult(rest.mem, rest.reg, rest.missing)
  }

  /** The copy the pass writes for the `j`-th attached region. */
  function CopyOf(orig: seq<AttachedRegion>, copies: seq<CopiedRegion>, j: nat): (x: Cap)
    requires j < |orig| && HasCopy(copies, orig[j].Key())
    ensures x in CapsOf(copies)
  {
    var i := FindCopy(copies, orig[j].Key()).value;
    assert copies[i] in copies;
    copies[i].copyDs
  }

  /** The pass writes no dataspace but the copies found for its regions. */
  lemma {:induction false} CopyPassLeaves(orig: seq<AttachedRegion>, copies: seq<CopiedRegion>,
                                          target: Memory,
                                          mem: Memory, reg: Registry, x: Cap)
    requires AllReady(orig, copies, target, mem, reg)
    requires x in mem
    requires forall j :: 0 <= j < |orig| && HasCopy(copies, orig[j].Key()) ==>
      CopyOf(orig, copies, j) != x
    ensures CopyPass(orig, copies, target, mem, reg).mem[x] == mem[x]
    decreases |orig|
  {
    if |orig| > 0 {
      var o := orig[0];
      assert CopyReady(o, copies, target, mem, reg);
      assert forall j :: 1 <= j < |orig| ==> orig[j] == orig[1..][j - 1];
      match FindCopy(copies, o.Key())
      case None =>
        CopyPassLeaves(orig[1..], copies, target, mem, reg, x);
      case Some(i) =>
        assert CopyOf(orig, copies, 0) == copies[i].copyDs;
        var c := CopyRegion(o, copies[i], target, mem, reg);
        AllReadyTail(orig, copies, target, mem, reg, c.mem, c.reg);
        CopyPassLeaves(orig[1..], copies, target, c.mem, c.reg, x);
    }
  }

  /** Distinct regions of a group have distinct copies. */
  lemma CopyOfDistinct(orig: seq<AttachedRegion>, copies: seq<CopiedRegion>, j: nat, l: nat)
    requires UniqueAttachedKeys(orig) && DistinctCaps(copies)
    requires j < |orig| && l < |orig| && j != l
    requires HasCopy(copies, orig[j].Key()) && HasCopy(copies, orig[l].Key())
    ensures CopyOf(orig, copies, j) != CopyOf(orig, copies, l)
  {
    var i := FindCopy(copies, orig[j].Key()).value;
    var i' := FindCopy(copies, orig[l].Key()).value;
    assert orig[j].Key() != orig[l].Key();
    assert i != i';
  }

  /** Everything after the first region leaves its copy alone. */
  lemma PassAfterFirst(orig: seq<AttachedRegion>, copies: seq<CopiedRegion>, target: Memory,
                       mem: Memory, reg: Registry)
    requires |orig| > 0 && AllReady(orig[1..], copies, target, mem, reg)
    requires UniqueAttachedKeys(orig) && DistinctCaps(copies) && HasCopy(copies, orig[0].Key())
    requires CopyOf(orig, copies, 0) in mem
    ensures CopyPass(orig[1..], copies, target, mem, reg).mem[CopyOf(orig, copies, 0)] ==
        mem[CopyOf(orig, copies, 0)]
  {
    var tail := orig[1..];
    forall j | 0 <= j < |tail| && HasCopy(copies, tail[j].Key())
      ensures CopyOf(tail, copies, j) != CopyOf(orig, copies, 0)
    {
      assert tail[j] == orig[j + 1];
      assert CopyOf(tail, copies, j) == CopyOf(orig, copies, j + 1);
      CopyOfDistinct(orig, copies, 0, j + 1);
    }
    CopyPassLeaves(tail, copies, target, mem, reg, CopyOf(orig, copies, 0));
  }

  lemma UniqueAttachedKeysTail(orig: seq<AttachedRegion>)
    requires |orig| > 0 && UniqueAttachedKeys(orig)
    ensures UniqueAttachedKeys(orig[1..])
  {
    forall i, j | 0 <= i < j < |orig[1..]|
      ensures orig[1..][i].Key() != orig[1..][j].Key()
    {
      assert orig[1..][i] == orig[i + 1] && orig[1..][j] == orig[j + 1];
    }
  }

  /** A plain region's copy holds the region's bytes after the pass. */
  lemma {:induction false} CopyPassCopiesPlain(orig: seq<AttachedRegion>, copies: seq<CopiedRegion>,
                                               target: Memory,
                                               mem: Memory, reg: Registry, j: nat, b: nat)
    requires AllReady(orig, copies, target, mem, reg)
    requires UniqueAttachedKeys(orig) && DistinctCaps(copies)
    requires j < |orig| && orig[j].ds !in reg && HasCopy(copies, orig[j].Key()) && b < orig[j].size
    ensures orig[j].ds in target && b < |target[orig[j].ds]|
    ensures CopyPass(orig, copies, target, mem, reg).mem[CopyOf(orig, copies, j)][b] ==
        target[orig[j].ds][b]
    decreases |orig|
  {
    var o := orig[0];
    assert CopyReady(orig[j], copies, target, mem, reg);
    assert CopyReady(o, copies, target, mem, reg);
    UniqueAttachedKeysTail(orig);
    match FindCopy(copies, o.Key())
    case None =>
      assert j != 0;
      assert orig[j] == orig[1..][j - 1];
      CopyPassCopiesPlain(orig[1..], copies, target, mem, reg, j - 1, b);
    case Some(i) =>
      var c := CopyRegion(o, copies[i], target, mem, reg);
      AllReadyTail(orig, copies, target, mem, reg, c.mem, c.reg);
      if j == 0 {
        assert c.mem[copies[i].copyDs][0 + b] == target[o.ds][b];
        PassAfterFirst(orig, copies, target, c.mem, c.reg);
      } else {
        assert orig[j] == orig[1..][j - 1];
        CopyPassCopiesPlain(orig[1..], copies, target, c.mem, c.reg, j - 1, b);
      }
  }

  /** The managed case for the first region of the group. */
  lemma CopyPassCopiesManagedFirst(orig: seq<AttachedRegion>, copies: seq<CopiedRegion>,
                                   target: Memory,
                                   mem: Memory, reg: Registry, k: nat, b: nat)
    requires AllReady(orig, copies, target, mem, reg)
    requires UniqueAttachedKeys(orig) && DistinctCaps(copies)
    requires |orig| > 0 && orig[0].ds in reg && HasCopy(copies, orig[0].Key())
    requires Disjoint(reg[orig[0].ds].dds)
    requires k < |reg[orig[0].ds].dds| && reg[orig[0].ds].dds[k].attached
    requires b < reg[orig[0].ds].dds[k].size
    ensures reg[orig[0].ds].dds[k].ds in target && b < |target[reg[orig[0].ds].dds[k].ds]|
    ensures var r := CopyPass(orig, copies, target, mem, reg);
      r.mem[CopyOf(orig, copies, 0)][reg[orig[0].ds].dds[k].relAddr + b]
        == target[reg[orig[0].ds].dds[k].ds][b]
  {
    var o := orig[0];
    var dds := reg[o.ds].dds;
    assert CopyReady(o, copies, target, mem, reg);
    assert Fits(dds[k], target, o.size);
    var i := FindCopy(copies, o.Key()).value;
    var dst := copies[i].copyDs;
    var c := CopyRegion(o, copies[i], target, mem, reg);
    assert c.mem == CopyManaged(dds, dst, target, mem).mem;
    CopyManagedCopiesFlagged(dds, dst, target, mem, k, b);
    AllReadyTail(orig, copies, target, mem, reg, c.mem, c.reg);
    PassAfterFirst(orig, copies, target, c.mem, c.reg);
    assert CopyPass(orig, copies, target, mem, reg).mem ==
        CopyPass(orig[1..], copies, target, c.mem, c.reg).mem;
  }

  /** The pass copies its first region and then goes on from the state
      that leaves: only that region's copy and, when it is managed, that
      region's registry entry differ. */
  lemma FirstStep(orig: seq<AttachedRegion>, copies: seq<CopiedRegion>, target: Memory, mem: Memory,
                  reg: Registry)
    returns (mem': Memory, reg': Registry)
    requires |orig| > 0 && AllReady(orig, copies, target, mem, reg)
    ensures AllReady(orig[1..], copies, target, mem', reg')
    ensures CopyPass(orig, copies, target, mem, reg).mem ==
        CopyPass(orig[1..], copies, target, mem', reg').mem
    ensures CopyPass(orig, copies, target, mem, reg).reg ==
        CopyPass(orig[1..], copies, target, mem', reg').reg
    ensures forall d :: d in reg && d != orig[0].ds ==> d in reg' && reg'[d] == reg[d]
    ensures !HasCopy(copies, orig[0].Key()) ==> mem' == mem && reg' == reg
  {
    var o := orig[0];
    assert CopyReady(o, copies, target, mem, reg);
    match FindCopy(copies, o.Key())
    case None =>
      mem', reg' := mem, reg;
      AllReadyTail(orig, copies, target, mem, reg, mem, reg);
    case Some(i) =>
      var c := CopyRegion(o, copies[i], target, mem, reg);
      mem', reg' := c.mem, c.reg;
      AllReadyTail(orig, copies, target, mem, reg, c.mem, c.reg);
  }

  /** A managed region's copy holds, at the place of every piece flagged
      before the pass, that piece's bytes. The pieces `dds` of the managed
      dataspace `d` must not overlap, and no earlier region of the group may
      be `d` as well (which would have cleared the flags first). */
  lemma {:induction false} CopyPassCopiesManaged(orig: seq<AttachedRegion>,
                                                 copies: seq<CopiedRegion>, target: Memory,
                                                 mem: Memory, reg: Registry, j: nat, d: Cap,
                                                 dds: seq<DesignatedDataspace>,
                                                 k: nat, b: nat)
    requires AllReady(orig, copies, target, mem, reg)
    requires UniqueAttachedKeys(orig) && DistinctCaps(copies)
    requires j < |orig| && orig[j].ds == d && d in reg && reg[d].dds == dds
    requires HasCopy(copies, orig[j].Key())
    requires forall l :: 0 <= l < j ==> orig[l].ds != d
    requires Disjoint(dds)
    requires k < |dds| && dds[k].attached && b < dds[k].size
    ensures dds[k].ds in target && b < |target[dds[k].ds]|
    ensures var r := CopyPass(orig, copies, target, mem, reg);
      r.mem[CopyOf(orig, copies, j)][dds[k].relAddr + b] == target[dds[k].ds][b]
    decreases |orig|, 1
  {
    if j == 0 {
      CopyPassCopiesManagedFirst(orig, copies, target, mem, reg, k, b);
    } else {
      CopyPassCopiesManagedLater(orig, copies, target, mem, reg, j, d, dds, k, b);
    }
  }

  /** The managed case for a later region: the first region neither is `d`
      nor shares its copy. */
  lemma {:induction false} CopyPassCopiesManagedLater(orig: seq<AttachedRegion>,
                                                      copies: seq<CopiedRegion>, target: Memory,
                                                      mem: Memory, reg: Registry, j: nat, d: Cap,
                                                      dds: seq<DesignatedDataspace>,
                                                      k: nat, b: nat)
    requires AllReady(orig, copies, target, mem, reg)
    requires UniqueAttachedKeys(orig) && DistinctCaps(copies)
    requires 0 < j < |orig| && orig[j].ds == d && d in reg && reg[d].dds == dds
    requires HasCopy(copies, orig[j].Key())
    requires forall l :: 0 <= l < j ==> orig[l].ds != d
    requires Disjoint(dds)
    requires k < |dds| && dds[k].attached && b < dds[k].size
    ensures dds[k].ds in target && b < |target[dds[k].ds]|
    ensures var r := CopyPass(orig, copies, target, mem, reg);
      r.mem[CopyOf(orig, copies, j)][dds[k].relAddr + b] == target[dds[k].ds][b]
    decreases |orig|, 0
  {
    var tail := orig[1..];
    assert orig[0].ds != d;
    UniqueAttachedKeysTail(orig);
    assert orig[j] == tail[j - 1];
    assert forall l :: 0 <= l < j - 1 ==> tail[l] == orig[l + 1];
    assert CopyOf(orig, copies, j) == CopyOf(tail, copies, j - 1);
    var mem', reg' := FirstStep(orig, copies, target, mem, reg);
    CopyPassCopiesManaged(tail, copies, target, mem', reg', j - 1, d, dds, k, b);
  }

  /** The pass changes the registry entry of no managed dataspace it does not
      reach: only the `detach` of a copied managed region touches the flags. */
  lemma {:induction false} CopyPassKeepsRegistry(orig: seq<AttachedRegion>,
                                                 copies: seq<CopiedRegion>,
                                                 target: Memory, mem: Memory, reg: Registry, d: Cap)
    requires AllReady(orig, copies, target, mem, reg)
    requires d in reg && NotCopied(orig, copies, d)
    ensures var r := CopyPass(orig, copies, target, mem, reg);
      d in r.reg && r.reg[d] == reg[d]
    decreases |orig|
  {
    if |orig| > 0 {
      var mem', reg' := FirstStep(orig, copies, target, mem, reg);
      NotCopiedTail(orig, copies);
      CopyPassKeepsRegistry(orig[1..], copies, target, mem', reg', d);
    }
  }

  /** No piece of the managed dataspace is flagged. */
  ghost predicate Unflagged(reg: Registry, d: Cap) {
    d in reg && forall k :: 0 <= k < |reg[d].dds| ==> !reg[d].dds[k].attached
  }

  /** Once a managed dataspace has no flagged piece, the rest of the pass
      keeps it that way. */
  lemma {:induction false} CopyPassKeepsUnflagged(orig: seq<AttachedRegion>,
                                                  copies: seq<CopiedRegion>, target: Memory,
                                                  mem: Memory, reg: Registry, d: Cap)
    requires AllReady(orig, copies, target, mem, reg)
    requires Unflagged(reg, d)
    ensures Unflagged(CopyPass(orig, copies, target, mem, reg).reg, d)
    decreases |orig|
  {
    if |orig| > 0 {
      var o := orig[0];
      assert CopyReady(o, copies, target, mem, reg);
      match FindCopy(copies, o.Key())
      case None =>
        AllReadyTail(orig, copies, target, mem, reg, mem, reg);
        CopyPassKeepsUnflagged(orig[1..], copies, target, mem, reg, d);
      case Some(i) =>
        var c := CopyRegion(o, copies[i], target, mem, reg);
        AllReadyTail(orig, copies, target, mem, reg, c.mem, c.reg);
        CopyPassKeepsUnflagged(orig[1..], copies, target, c.mem, c.reg, d);
    }
  }

  /** After the pass, no piece of a copied managed region is flagged: the
      next checkpoint copies only what is written in between. */
  lemma {:induction false} CopyPassClearsFlags(orig: seq<AttachedRegion>, copies: seq<CopiedRegion>,
                                               target: Memory,
                                               mem: Memory, reg: Registry, j: nat)
    requires AllReady(orig, copies, target, mem, reg)
    requires j < |orig| && orig[j].ds in reg && HasCopy(copies, orig[j].Key())
    ensures Unflagged(CopyPass(orig, copies, target, mem, reg).reg, orig[j].ds)
    decreases |orig|
  {
    var o := orig[0];
    assert CopyReady(o, copies, target, mem, reg);
    match FindCopy(copies, o.Key())
    case None =>
      assert j != 0 && orig[j] == orig[1..][j - 1];
      AllReadyTail(orig, copies, target, mem, reg, mem, reg);
      CopyPassClearsFlags(orig[1..], copies, target, mem, reg, j - 1);
    case Some(i) =>
      var c := CopyRegion(o, copies[i], target, mem, reg);
      AllReadyTail(orig, copies, target, mem, reg, c.mem, c.reg);
      if j == 0 {
        CopyPassKeepsUnflagged(orig[1..], copies, target, c.mem, c.reg, o.ds);
      } else {
        assert orig[j] == orig[1..][j - 1];
        CopyPassClearsFlags(orig[1..], copies, target, c.mem, c.reg, j - 1);
      }
  }

  /** `_copy_dataspaces` as written. A null copy is dereferenced when the
      copy list is empty (line 151) and when no copy matches (lines 160 and
      165, after the error at line 152); both are undefined and give None. */
  function CopyPassAsWritten(orig: seq<AttachedRegion>, copies: seq<CopiedRegion>, target: Memory,
                             mem: Memory, reg: Registry): (r: Option<Copied>)
    requires AllReady(orig, copies, target, mem, reg)
    ensures r.Some? ==> forall j :: 0 <= j < |orig| ==> HasCopy(copies, orig[j].Key())
    ensures r.Some? ==> SameShape(mem, r.value.mem) && SameLayout(reg, r.value.reg)
    decreases |orig|
  {
    if |orig| == 0 then Some(Copied(mem, reg))
    else if |copies| == 0 then None
    else
      var o := orig[0];
      assert CopyReady(o, copies, target, mem, reg);
      match FindCopy(copies, o.Key())
      case None => None
      case Some(i) =>
        var c := CopyRegion(o, copies[i], target, mem, reg);
        AllReadyTail(orig, copies, target, mem, reg, c.mem, c.reg);
        CopyPassAsWritten(orig[1..], copies, target, c.mem, c.reg)
  }

  /** The pass as written is undefined as soon as one attached region lacks
      a copy; otherwise it agrees with the corrected pass, which then reports
      nothing missing. */
  lemma {:induction false} CopyPassAsWrittenOutcome(orig: seq<AttachedRegion>,
                                                    copies: seq<CopiedRegion>,
                                                    target: Memory, mem: Memory, reg: Registry)
    requires AllReady(orig, copies, target, mem, reg)
    ensures (exists j :: 0 <= j < |orig| && !HasCopy(copies, orig[j].Key())) ==>
      CopyPassAsWritten(orig, copies, target, mem, reg) == None
    ensures (forall j :: 0 <= j < |orig| ==> HasCopy(copies, orig[j].Key())) ==>
      CopyPassAsWritten(orig, copies, target, mem, reg)
        == Some(Copied(CopyPass(orig, copies, target, mem, reg).mem,
                       CopyPass(orig, copies, target, mem, reg).reg))
      && CopyPass(orig, copies, target, mem, reg).missing == []
    decreases |orig|
  {
    if |orig| > 0 {
      var o := orig[0];
      assert forall j :: 1 <= j < |orig| ==> orig[j] == orig[1..][j - 1];
      assert CopyReady(o, copies, target, mem, reg);
      if |copies| == 0 {
        assert !HasCopy(copies, o.Key());
      } else {
        match FindCopy(copies, o.Key())
        case None =>
        case Some(i) =>
          var c := CopyRegion(o, copies[i], target, mem, reg);
          AllReadyTail(orig, copies, target, mem, reg, c.mem, c.reg);
          CopyPassAsWrittenOutcome(orig[1..], copies, target, c.mem, c.reg);
      }
    }
  }
}

=== FILE: region_diff.dfy ===
/** The reconciliation half of `_copy_region_map`: the delete pass
    (`_delete_copied_region_infos`) and the create pass
    (`_create_copied_region_infos`) that bring a copy list in line with the
    list of attached regions, keyed by (dataspace, relative address). */
module RegionDiff {
  import opened Types
  import opened Dataspace

  /** A copy list together with the RAM session backing its dataspaces. */
  datatype Mirror = Mirror(copies: seq<CopiedRegion>, ram: Ram)

  /** `find_by_cap_and_addr` on the attached list: the first entry with key `k`. */
  function FindAttached(orig: seq<AttachedRegion>, k: RegionKey): (r: Option<nat>)
    ensures r.Some? ==> r.value < |orig| && orig[r.value].Key() == k
    ensures r.Some? ==> forall j :: 0 <= j < r.value ==> orig[j].Key() != k
    ensures r.None? <==> !HasAttached(orig, k)
    decreases |orig|
  {
    if |orig| == 0 then None
    else if orig[0].Key() == k then Some(0)
    else match FindAttached(orig[1..], k)
      case None =>
        assert forall j :: 1 <= j < |orig| ==> orig[j] == orig[1..][j - 1];
        None
      case Some(j) => Some(j + 1)
  }

  /** `find_by_cap_and_addr` on the copy list: the first entry with key `k`. */
  function FindCopy(copies: seq<CopiedRegion>, k: RegionKey): (r: Option<nat>)
    ensures r.Some? ==> r.value < |copies| && copies[r.value].Key() == k
    ensures r.Some? ==> forall j :: 0 <= j < r.value ==> copies[j].Key() != k
    ensures r.None? <==> !HasCopy(copies, k)
    decreases |copies|
  {
    if |copies| == 0 then None
    else if copies[0].Key() == k then Some(0)
    else match FindCopy(copies[1..], k)
      case None =>
        assert forall j :: 1 <= j < |copies| ==> copies[j] == copies[1..][j - 1];
        None
      case Some(j) => Some(j + 1)
  }

  /** With unique keys, the entry found for a key is the only one carrying it. */
  lemma FindCopyUnique(copies: seq<CopiedRegion>, k: RegionKey, j: nat)
    requires UniqueKeys(copies)
    requires j < |copies| && copies[j].Key() == k
    ensures FindCopy(copies, k) == Some(j)
  {
    var r := FindCopy(copies, k);
    assert r.Some?;
    assert copies[r.value].Key() == copies[j].Key();
  }

  // ---------------------------------------------------------------------
  // Delete pass
  // ---------------------------------------------------------------------

  /** The copies the delete pass keeps, in list order: those whose source
      region is still attached. */
  function DeleteStale(copies: seq<CopiedRegion>,
                       orig: seq<AttachedRegion>): (kept: seq<CopiedRegion>)
    ensures forall c :: c in kept <==> c in copies && HasAttached(orig, c.Key())
    ensures |kept| <= |copies|
    decreases |copies|
  {
    if |copies| == 0 then []
    else
      var rest := DeleteStale(copies[1..], orig);
      assert forall c :: c in copies <==> c == copies[0] || c in copies[1..];
      if FindAttached(orig, copies[0].Key()).Some? then [copies[0]] + rest else rest
  }

  /** The delete pass distributes over concatenation: it keeps the relative
      order of the entries it keeps. */
  lemma {:induction false} DeleteStaleAppend(a: seq<CopiedRegion>, b: seq<CopiedRegion>,
                                             orig: seq<AttachedRegion>)
    ensures DeleteStale(a + b, orig) == DeleteStale(a, orig) + DeleteStale(b, orig)
    decreases |a|
  {
    if |a| == 0 {
      assert a + b == b;
    } else {
      assert (a + b)[1..] == a[1..] + b;
      assert (a + b)[0] == a[0];
      DeleteStaleAppend(a[1..], b, orig);
    }
  }

  /** A copy whose source is still attached is kept, in place. */
  lemma {:induction false} DeleteStaleKeepsMatched(copies: seq<CopiedRegion>,
                                                   orig: seq<AttachedRegion>)
    requires forall i :: 0 <= i < |copies| ==> HasAttached(orig, copies[i].Key())
    ensures DeleteStale(copies, orig) == copies
    decreases |copies|
  {
    if |copies| > 0 {
      DeleteStaleKeepsMatched(copies[1..], orig);
    }
  }

  lemma {:induction false} DeleteStaleUnique(copies: seq<CopiedRegion>, orig: seq<AttachedRegion>)
    requires UniqueKeys(copies)
    ensures UniqueKeys(DeleteStale(copies, orig))
    decreases |copies|
  {
    if |copies| > 0 {
      var rest := DeleteStale(copies[1..], orig);
      DeleteStaleUnique(copies[1..], orig);
      forall j | 0 <= j < |rest|
        ensures rest[j].Key() != copies[0].Key()
      {
        assert rest[j] in copies[1..];
        var j' :| 0 <= j' < |copies[1..]| && copies[1..][j'] == rest[j];
        assert copies[j' + 1] == rest[j];
      }
    }
  }

  lemma {:induction false} DeleteStaleDistinct(copies: seq<CopiedRegion>, orig: seq<AttachedRegion>)
    requires DistinctCaps(copies)
    ensures DistinctCaps(DeleteStale(copies, orig))
    decreases |copies|
  {
    if |copies| > 0 {
      var rest := DeleteStale(copies[1..], orig);
      DeleteStaleDistinct(copies[1..], orig);
      forall j | 0 <= j < |rest|
        ensures rest[j].copyDs != copies[0].copyDs
      {
        assert rest[j] in copies[1..];
        var j' :| 0 <= j' < |copies[1..]| && copies[1..][j'] == rest[j];
        assert copies[j' + 1] == rest[j];
      }
    }
  }

  /** The dataspaces of the copies the delete pass drops. */
  function StaleCaps(copies: seq<CopiedRegion>, orig: seq<AttachedRegion>): set<Cap> {
    set c | c in copies && !HasAttached(orig, c.Key()) :: c.copyDs
  }

  /** The delete pass as written: entries are unlinked and destroyed, but
      their copy dataspaces stay allocated. */
  function DeleteAsWritten(m: Mirror, orig: seq<AttachedRegion>): (r: Mirror)
    ensures forall c :: c in r.copies <==> c in m.copies && HasAttached(orig, c.Key())
    ensures r.ram.mem.Keys == m.ram.mem.Keys
  {
    Mirror(DeleteStale(m.copies, orig), m.ram)
  }

  /** The leak: a dropped copy's dataspace is still allocated afterwards,
      while no remaining copy refers to it. */
  lemma DeleteAsWrittenLeaks(m: Mirror, orig: seq<AttachedRegion>, c: CopiedRegion)
    requires DistinctCaps(m.copies)
    requires c in m.copies && c.copyDs in m.ram.mem
    requires !HasAttached(orig, c.Key())
    ensures c.copyDs in DeleteAsWritten(m, orig).ram.mem
    ensures c.copyDs !in CapsOf(DeleteAsWritten(m, orig).copies)
  {
    var kept := DeleteStale(m.copies, orig);
    forall d | d in kept
      ensures d.copyDs != c.copyDs
    {
      var i :| 0 <= i < |m.copies| && m.copies[i] == c;
      var j :| 0 <= j < |m.copies| && m.copies[j] == d;
      assert HasAttached(orig, d.Key());
      assert i != j;
    }
  }

  /** The delete pass with the copy dataspaces of dropped entries released. */
  function DeleteStaleFreeing(m: Mirror, orig: seq<AttachedRegion>): (r: Mirror)
    ensures r.copies == DeleteStale(m.copies, orig)
    ensures r.ram.next == m.ram.next
    ensures Fresh(m.ram) ==> Fresh(r.ram)
  {
    Mirror(DeleteStale(m.copies, orig), Free(m.ram, StaleCaps(m.copies, orig)))
  }

  /** After the freeing delete pass no dropped copy's dataspace is allocated,
      every kept copy's dataspace still is, and memory not owned by the list
      is untouched. */
  lemma DeleteStaleFreeingAccounts(m: Mirror, orig: seq<AttachedRegion>)
    requires DistinctCaps(m.copies)
    requires CapsOf(m.copies) <= m.ram.mem.Keys
    ensures forall c :: c in m.copies && !HasAttached(orig, c.Key()) ==>
      c.copyDs !in DeleteStaleFreeing(m, orig).ram.mem
    ensures CapsOf(DeleteStaleFreeing(m, orig).copies) <= DeleteStaleFreeing(m, orig).ram.mem.Keys
    ensures DeleteStaleFreeing(m, orig).ram.mem.Keys - CapsOf(DeleteStaleFreeing(m, orig).copies)
         == m.ram.mem.Keys - CapsOf(m.copies)
    ensures forall x :: x in DeleteStaleFreeing(m, orig).ram.mem ==>
      DeleteStaleFreeing(m, orig).ram.mem[x] == m.ram.mem[x]
  {
    var r := DeleteStaleFreeing(m, orig);
    var stale := StaleCaps(m.copies, orig);
    forall d, c | d in r.copies && c in m.copies && !HasAttached(orig, c.Key())
      ensures d.copyDs != c.copyDs
    {
      var i :| 0 <= i < |m.copies| && m.copies[i] == c;
      var j :| 0 <= j < |m.copies| && m.copies[j] == d;
      assert i != j;
    }
    assert CapsOf(m.copies) == CapsOf(r.copies) + stale;
  }

  // ---------------------------------------------------------------------
  // Create pass
  // ---------------------------------------------------------------------

  /** The copies a create pass inserts, newest first, and the RAM session
      after their allocation. The copy list afterwards is `added` followed
      by the list the pass started from. */
  datatype Created = Created(added: seq<CopiedRegion>, ram: Ram)

  /** `_create_copied_region_info`: a dataspace of the region's size and a
      copy mirroring the region, managed when its dataspace is. */
  function CreateCopiedRegion(o: AttachedRegion, ram: Ram, reg: Registry): (r: Created)
    ensures |r.added| == 1
    ensures r.added[0].Key() == o.Key() && r.added[0].managed == (o.ds in reg)
    ensures ram.next <= r.added[0].copyDs < r.ram.next
    ensures Fresh(ram) ==> r.added[0].copyDs !in ram.mem && Fresh(r.ram)
    ensures r.ram.mem.Keys == ram.mem.Keys + {r.added[0].copyDs}
    ensures r.ram.mem[r.added[0].copyDs] == Zeros(o.size)
    ensures forall x :: x in ram.mem && x != r.added[0].copyDs ==> r.ram.mem[x] == ram.mem[x]
  {
    var a := Alloc(ram, o.size);
    Created([CopiedRegion(o.ds, o.relAddr, a.cap, o.ds in reg)], a.ram)
  }

  /** The create pass from entry `i` on, over the list `copies` built so far:
      reserved entries are skipped, entries whose key already has a copy
      are left alone, and the others get a copy at the head of the list. */
  function CreateFrom(orig: seq<AttachedRegion>, i: nat, copies: seq<CopiedRegion>, ram: Ram,
                      reg: Registry, areas: Areas): (r: Created)
    requires i <= |orig|
    ensures ram.next <= r.ram.next
    ensures Fresh(ram) ==> Fresh(r.ram)
    ensures Fresh(ram) ==> forall x :: x in ram.mem ==> x in r.ram.mem && r.ram.mem[x] == ram.mem[x]
    decreases |orig| - i
  {
    if i == |orig| then Created([], ram)
    else if IsReserved(orig[i], areas) || FindCopy(copies, orig[i].Key()).Some? then
      CreateFrom(orig, i + 1, copies, ram, reg, areas)
    else
      var n := CreateCopiedRegion(orig[i], ram, reg);
      var rest := CreateFrom(orig, i + 1, n.added + copies, n.ram, reg, areas);
      Created(rest.added + n.added, rest.ram)
  }

  /** `_create_copied_region_infos` with the skip fixed to move on to the
      next entry. */
  function CreateMissing(orig: seq<AttachedRegion>, m: Mirror, reg: Registry,
                         areas: Areas): (r: Mirror)
    ensures forall j :: 0 <= j < |orig| && !IsReserved(orig[j], areas) ==>
      HasCopy(r.copies, orig[j].Key())
    ensures |m.copies| <= |r.copies| && r.copies[|r.copies| - |m.copies|..] == m.copies
    ensures m.ram.next <= r.ram.next
  {
    var c := CreateFrom(orig, 0, m.copies, m.ram, reg, areas);
    CreateCovers(orig, 0, m.copies, m.ram, reg, areas);
    Mirror(c.added + m.copies, c.ram)
  }

  /** A key present in a list stays present when entries are put in front. */
  lemma HasCopyPrefixed(a: seq<CopiedRegion>, b: seq<CopiedRegion>, k: RegionKey)
    requires HasCopy(b, k)
    ensures HasCopy(a + b, k)
  {
    var j :| 0 <= j < |b| && b[j].Key() == k;
    assert (a + b)[|a| + j] == b[j];
  }

  /** Every attached entry from `i` on that is not reserved has a copy after
      the create pass. */
  lemma {:induction false} CreateCovers(orig: seq<AttachedRegion>, i: nat,
                                        copies: seq<CopiedRegion>, ram: Ram,
                                        reg: Registry, areas: Areas)
    requires i <= |orig|
    ensures forall j :: i <= j < |orig| && !IsReserved(orig[j], areas) ==>
      HasCopy(CreateFrom(orig, i, copies, ram, reg, areas).added + copies, orig[j].Key())
    decreases |orig| - i
  {
    if i < |orig| {
      var r := CreateFrom(orig, i, copies, ram, reg, areas);
      if IsReserved(orig[i], areas) || FindCopy(copies, orig[i].Key()).Some? {
        CreateCovers(orig, i + 1, copies, ram, reg, areas);
        if !IsReserved(orig[i], areas) {
          HasCopyPrefixed(r.added, copies, orig[i].Key());
        }
      } else {
        var n := CreateCopiedRegion(orig[i], ram, reg);
        var rest := CreateFrom(orig, i + 1, n.added + copies, n.ram, reg, areas);
        CreateCovers(orig, i + 1, n.added + copies, n.ram, reg, areas);
        assert r.added + copies == rest.added + (n.added + copies);
        assert (n.added + copies)[0] == n.added[0];
        HasCopyPrefixed(rest.added, n.added + copies, orig[i].Key());
      }
    }
  }

  /** A copy the create pass adds: made for a non-reserved attached entry
      from `i` on, with a dataspace allocated during the pass and still
      zero-filled at the entry's size, flagged managed exactly when the
      source dataspace is managed. */
  ghost predicate NewCopy(c: CopiedRegion, orig: seq<AttachedRegion>, i: nat, reg: Registry,
                          areas: Areas,
                          before: Cap, after: Ram)
  {
    && before <= c.copyDs < after.next
    && c.copyDs in after.mem
    && c.managed == (c.origDs in reg)
    && exists j :: i <= j < |orig| && !IsReserved(orig[j], areas) && orig[j].Key() == c.Key()
                   && after.mem[c.copyDs] == Zeros(orig[j].size)
  }

  lemma {:induction false} CreateNewCopies(orig: seq<AttachedRegion>, i: nat,
                                           copies: seq<CopiedRegion>, ram: Ram,
                                           reg: Registry, areas: Areas, r: Created)
    requires i <= |orig|
    requires Fresh(ram)
    requires r == CreateFrom(orig, i, copies, ram, reg, areas)
    ensures forall k :: 0 <= k < |r.added| ==>
      NewCopy(r.added[k], orig, i, reg, areas, ram.next, r.ram)
    decreases |orig| - i
  {
    if i < |orig| {
      if IsReserved(orig[i], areas) || FindCopy(copies, orig[i].Key()).Some? {
        CreateNewCopies(orig, i + 1, copies, ram, reg, areas, r);
        forall k | 0 <= k < |r.added|
          ensures NewCopy(r.added[k], orig, i, reg, areas, ram.next, r.ram)
        {
          var c := r.added[k];
          assert r == CreateFrom(orig, i + 1, copies, ram, reg, areas);
          assert NewCopy(c, orig, i + 1, reg, areas, ram.next, r.ram);
          var j :| i + 1 <= j < |orig| && !IsReserved(orig[j], areas) && orig[j].Key() == c.Key()
                   && r.ram.mem[c.copyDs] == Zeros(orig[j].size);
        }
      } else {
        var n := CreateCopiedRegion(orig[i], ram, reg);
        var rest := CreateFrom(orig, i + 1, n.added + copies, n.ram, reg, areas);
        CreateNewCopies(orig, i + 1, n.added + copies, n.ram, reg, areas, rest);
        forall k | 0 <= k < |r.added|
          ensures NewCopy(r.added[k], orig, i, reg, areas, ram.next, r.ram)
        {
          var c := r.added[k];
          if k < |rest.added| {
            assert r.ram == rest.ram;
            assert c == rest.added[k];
            assert NewCopy(c, orig, i + 1, reg, areas, n.ram.next, r.ram);
            var j :| i + 1 <= j < |orig| && !IsReserved(orig[j], areas) && orig[j].Key() == c.Key()
                     && r.ram.mem[c.copyDs] == Zeros(orig[j].size);
          } else {
            assert c == n.added[0];
            assert n.ram.mem[c.copyDs] == Zeros(orig[i].size);
            assert r.ram.mem[c.copyDs] == Zeros(orig[i].size);
          }
        }
      }
    }
  }

  /** The create pass never gives two copies the same key. */
  lemma {:induction false} CreateKeepsUnique(orig: seq<AttachedRegion>, i: nat,
                                             copies: seq<CopiedRegion>, ram: Ram,
                                             reg: Registry, areas: Areas)
    requires i <= |orig|
    requires UniqueKeys(copies)
    ensures UniqueKeys(CreateFrom(orig, i, copies, ram, reg, areas).added + copies)
    decreases |orig| - i
  {
    if i < |orig| {
      var r := CreateFrom(orig, i, copies, ram, reg, areas);
      if IsReserved(orig[i], areas) || FindCopy(copies, orig[i].Key()).Some? {
        CreateKeepsUnique(orig, i + 1, copies, ram, reg, areas);
      } else {
        var n := CreateCopiedRegion(orig[i], ram, reg);
        var rest := CreateFrom(orig, i + 1, n.added + copies, n.ram, reg, areas);
        var s := n.added + copies;
        assert forall j :: 1 <= j < |s| ==> s[j] == copies[j - 1];
        assert !HasCopy(copies, orig[i].Key());
        assert UniqueKeys(s);
        CreateKeepsUnique(orig, i + 1, s, n.ram, reg, areas);
        assert r.added + copies == rest.added + s;
      }
    }
  }

  /** Every dataspace of the list is allocated. */
  ghost predicate Owned(m: Mirror) {
    forall j :: 0 <= j < |m.copies| ==> m.copies[j].copyDs in m.ram.mem
  }

  /** The create pass keeps backing dataspaces distinct and allocated, and
      leaves the memory the list does not own as it was. */
  lemma {:induction false} CreateKeepsInvariants(orig: seq<AttachedRegion>, i: nat,
                                                 copies: seq<CopiedRegion>, ram: Ram,
                                                 reg: Registry, areas: Areas, r: Created)
    requires i <= |orig|
    requires Fresh(ram) && Owned(Mirror(copies, ram))
    requires r == CreateFrom(orig, i, copies, ram, reg, areas)
    ensures Owned(Mirror(r.added + copies, r.ram))
    ensures DistinctCaps(copies) ==> DistinctCaps(r.added + copies)
    ensures r.ram.mem.Keys - CapsOf(r.added + copies) == ram.mem.Keys - CapsOf(copies)
    decreases |orig| - i, 1
  {
    if i == |orig| {
      assert r.added + copies == copies;
    } else if IsReserved(orig[i], areas) || FindCopy(copies, orig[i].Key()).Some? {
      CreateKeepsInvariants(orig, i + 1, copies, ram, reg, areas, r);
    } else {
      CreateKeepsInvariantsStep(orig, i, copies, ram, reg, areas, r);
    }
  }

  /** The inserting case of CreateKeepsInvariants. */
  lemma {:induction false} CreateKeepsInvariantsStep(orig: seq<AttachedRegion>, i: nat,
                                                     copies: seq<CopiedRegion>, ram: Ram,
                                                     reg: Registry, areas: Areas, r: Created)
    requires i < |orig|
    requires Fresh(ram) && Owned(Mirror(copies, ram))
    requires !IsReserved(orig[i], areas) && FindCopy(copies, orig[i].Key()).None?
    requires r == CreateFrom(orig, i, copies, ram, reg, areas)
    ensures Owned(Mirror(r.added + copies, r.ram))
    ensures DistinctCaps(copies) ==> DistinctCaps(r.added + copies)
    ensures r.ram.mem.Keys - CapsOf(r.added + copies) == ram.mem.Keys - CapsOf(copies)
    decreases |orig| - i, 0
  {
    var n := CreateCopiedRegion(orig[i], ram, reg);
    var rest := CreateFrom(orig, i + 1, n.added + copies, n.ram, reg, areas);
    var s := n.added + copies;
    assert r == Created(rest.added + n.added, rest.ram);
    CreateCopiedRegionKeeps(orig[i], copies, ram, reg, n);
    CreateKeepsInvariants(orig, i + 1, s, n.ram, reg, areas, rest);
    assert r.added + copies == rest.added + s;
  }

  /** One insertion keeps the list's dataspaces distinct and allocated. */
  lemma CreateCopiedRegionKeeps(o: AttachedRegion, copies: seq<CopiedRegion>, ram: Ram,
                                reg: Registry, n: Created)
    requires Fresh(ram) && Owned(Mirror(copies, ram))
    requires n == CreateCopiedRegion(o, ram, reg)
    ensures Owned(Mirror(n.added + copies, n.ram))
    ensures DistinctCaps(copies) ==> DistinctCaps(n.added + copies)
    ensures n.ram.mem.Keys - CapsOf(n.added + copies) == ram.mem.Keys - CapsOf(copies)
  {
    var s := n.added + copies;
    var c := n.added[0];
    assert forall j :: 1 <= j < |s| ==> s[j] == copies[j - 1];
    assert s[0] == c;
    assert CapsOf(s) == CapsOf(copies) + {c.copyDs};
  }

  /** When every non-reserved entry from `i` on already has a copy, the
      create pass neither inserts nor allocates. */
  lemma {:induction false} CreateNoop(orig: seq<AttachedRegion>, i: nat, copies: seq<CopiedRegion>,
                                      ram: Ram,
                                      reg: Registry, areas: Areas)
    requires i <= |orig|
    requires forall j :: i <= j < |orig| && !IsReserved(orig[j], areas) ==>
      HasCopy(copies, orig[j].Key())
    ensures CreateFrom(orig, i, copies, ram, reg, areas) == Created([], ram)
    decreases |orig| - i
  {
    if i < |orig| {
      CreateNoop(orig, i + 1, copies, ram, reg, areas);
    }
  }

  // ---------------------------------------------------------------------
  // The create loop as written
  // ---------------------------------------------------------------------

  /** The state of the create loop: the entry `orig_info` points at, and
      the copy list built so far. */
  datatype CreateLoop = CreateLoop(cursor: nat, m: Mirror)

  /** One iteration of the loop at lines 106-124. On a reserved entry the
      `continue` at line 110 returns to the loop test before `orig_info`
      is advanced at line 123, so the state is unchanged. */
  function CreateStepAsWritten(orig: seq<AttachedRegion>, s: CreateLoop, reg: Registry,
                               areas: Areas): (r: CreateLoop)
    requires s.cursor < |orig|
    ensures IsReserved(orig[s.cursor], areas) ==> r == s
    ensures !IsReserved(orig[s.cursor], areas) ==>
      r.cursor == s.cursor + 1 && HasCopy(r.m.copies, orig[s.cursor].Key())
  {
    var o := orig[s.cursor];
    if IsReserved(o, areas) then s
    else if FindCopy(s.m.copies, o.Key()).Some? then CreateLoop(s.cursor + 1, s.m)
    else
      var n := CreateCopiedRegion(o, s.m.ram, reg);
      assert (n.added + s.m.copies)[0] == n.added[0];
      CreateLoop(s.cursor + 1, Mirror(n.added + s.m.copies, n.ram))
  }

  /** At most `fuel` iterations of the loop as written; None when the loop
      has not left by then. */
  function RunCreateAsWritten(orig: seq<AttachedRegion>, s: CreateLoop, reg: Registry, areas: Areas,
                              fuel: nat): (r: Option<Mirror>)
    ensures r.Some? ==> forall j :: s.cursor <= j < |orig| ==> !IsReserved(orig[j], areas)
    decreases fuel
  {
    if s.cursor >= |orig| then Some(s.m)
    else if fuel == 0 then None
    else RunCreateAsWritten(orig, CreateStepAsWritten(orig, s, reg, areas), reg, areas, fuel - 1)
  }

  /** Once a reserved entry lies ahead of the cursor, no number of
      iterations leaves the loop. */
  lemma {:induction false} CreateAsWrittenHangs(orig: seq<AttachedRegion>, s: CreateLoop,
                                                reg: Registry, areas: Areas,
                                                fuel: nat, i: nat)
    requires s.cursor <= i < |orig| && IsReserved(orig[i], areas)
    ensures RunCreateAsWritten(orig, s, reg, areas, fuel) == None
    decreases fuel
  {
    if fuel > 0 {
      CreateAsWrittenHangs(orig, CreateStepAsWritten(orig, s, reg, areas), reg, areas, fuel - 1, i);
    }
  }

  /** Without reserved entries ahead, the loop as written leaves after one
      iteration per entry with the same list as the corrected pass. */
  lemma {:induction false} CreateAsWrittenAgrees(orig: seq<AttachedRegion>, s: CreateLoop,
                                                 reg: Registry, areas: Areas,
                                                 fuel: nat)
    requires s.cursor <= |orig|
    requires forall j :: s.cursor <= j < |orig| ==> !IsReserved(orig[j], areas)
    requires |orig| - s.cursor <= fuel
    ensures var r := CreateFrom(orig, s.cursor, s.m.copies, s.m.ram, reg, areas);
      RunCreateAsWritten(orig, s, reg, areas, fuel) == Some(Mirror(r.added + s.m.copies, r.ram))
    decreases fuel
  {
    if s.cursor < |orig| {
      var s' := CreateStepAsWritten(orig, s, reg, areas);
      CreateAsWrittenAgrees(orig, s', reg, areas, fuel - 1);
      CreateStepAgrees(orig, s, reg, areas);
      assert RunCreateAsWritten(orig, s, reg, areas, fuel) ==
          RunCreateAsWritten(orig, s', reg, areas, fuel - 1);
    } else {
      assert CreateFrom(orig, s.cursor, s.m.copies, s.m.ram, reg, areas) == Created([], s.m.ram);
      assert [] + s.m.copies == s.m.copies;
    }
  }

  /** One iteration on an entry that is not reserved does what the corrected
      pass does for that entry. */
  lemma CreateStepAgrees(orig: seq<AttachedRegion>, s: CreateLoop, reg: Registry, areas: Areas)
    requires s.cursor < |orig| && !IsReserved(orig[s.cursor], areas)
    ensures var s' := CreateStepAsWritten(orig, s, reg, areas);
      var r := CreateFrom(orig, s.cursor, s.m.copies, s.m.ram, reg, areas);
      var r' := CreateFrom(orig, s'.cursor, s'.m.copies, s'.m.ram, reg, areas);
      s'.cursor == s.cursor + 1 && r'.added + s'.m.copies == r.added + s.m.copies && r'.ram == r.ram
  {
  }

  // ---------------------------------------------------------------------
  // Delete followed by create
  // ---------------------------------------------------------------------

  /** Lines 59-62: the delete pass (releasing dropped dataspaces), then the
      create pass. */
  function Reconcile(orig: seq<AttachedRegion>, m: Mirror, reg: Registry, areas: Areas): (r: Mirror)
    ensures forall j :: 0 <= j < |orig| && !IsReserved(orig[j], areas) ==>
      HasCopy(r.copies, orig[j].Key())
    ensures forall c :: c in m.copies && HasAttached(orig, c.Key()) ==> c in r.copies
    ensures m.ram.next <= r.ram.next
  {
    var d := DeleteStaleFreeing(m, orig);
    var r := CreateMissing(orig, d, reg, areas);
    assert forall c :: c in d.copies ==> c in r.copies[|r.copies| - |d.copies|..];
    r
  }

  /** No copy mirrors a reserved dataspace. */
  ghost predicate NoReservedCopies(copies: seq<CopiedRegion>, areas: Areas) {
    forall i :: 0 <= i < |copies| ==>
      copies[i].origDs != areas.stackDs && copies[i].origDs != areas.linkerDs
  }

  /** A copy list in line with the attached list: one copy per key, a copy
      for each non-reserved attached entry, and nothing else. */
  ghost predicate Reconciled(copies: seq<CopiedRegion>, orig: seq<AttachedRegion>, areas: Areas) {
    && UniqueKeys(copies)
    && NoReservedCopies(copies, areas)
    && (forall j :: 0 <= j < |orig| && !IsReserved(orig[j], areas) ==>
          HasCopy(copies, orig[j].Key()))
    && (forall i :: 0 <= i < |copies| ==> HasAttached(orig, copies[i].Key()))
  }

  /** The copies a reconciliation inserts are all NewCopy; the copies it
      keeps from before sit behind them and still match an attached entry. */
  lemma ReconcileShape(orig: seq<AttachedRegion>, m: Mirror, reg: Registry, areas: Areas, d: Mirror,
                       r: Created)
    requires Fresh(m.ram)
    requires d == DeleteStaleFreeing(m, orig)
    requires r == CreateFrom(orig, 0, d.copies, d.ram, reg, areas)
    ensures Reconcile(orig, m, reg, areas) == Mirror(r.added + d.copies, r.ram)
    ensures forall k :: 0 <= k < |r.added| ==>
      NewCopy(r.added[k], orig, 0, reg, areas, m.ram.next, r.ram)
    ensures forall i :: 0 <= i < |r.added + d.copies| ==>
      HasAttached(orig, (r.added + d.copies)[i].Key())
  {
    CreateNewCopies(orig, 0, d.copies, d.ram, reg, areas, r);
    forall i | 0 <= i < |r.added + d.copies|
      ensures HasAttached(orig, (r.added + d.copies)[i].Key())
    {
      if i < |r.added| {
        assert NewCopy(r.added[i], orig, 0, reg, areas, m.ram.next, r.ram);
      } else {
        assert (r.added + d.copies)[i] == d.copies[i - |r.added|];
        assert d.copies[i - |r.added|] in d.copies;
      }
    }
  }

  /** After delete and create, the copy list is in line with the attached
      list. */
  lemma ReconcileEstablishes(orig: seq<AttachedRegion>, m: Mirror, reg: Registry, areas: Areas)
    requires Fresh(m.ram)
    requires UniqueKeys(m.copies) && NoReservedCopies(m.copies, areas)
    ensures Reconciled(Reconcile(orig, m, reg, areas).copies, orig, areas)
  {
    var d := DeleteStaleFreeing(m, orig);
    var r := CreateFrom(orig, 0, d.copies, d.ram, reg, areas);
    ReconcileShape(orig, m, reg, areas, d, r);
    DeleteStaleUnique(m.copies, orig);
    CreateKeepsUnique(orig, 0, d.copies, d.ram, reg, areas);
    CreateCovers(orig, 0, d.copies, d.ram, reg, areas);
    var s := r.added + d.copies;
    forall i | 0 <= i < |s|
      ensures s[i].origDs != areas.stackDs && s[i].origDs != areas.linkerDs
    {
      if i < |r.added| {
        assert NewCopy(r.added[i], orig, 0, reg, areas, m.ram.next, r.ram);
      } else {
        assert s[i] == d.copies[i - |r.added|];
        assert s[i] in m.copies;
      }
    }
  }

  /** Reconciling again against an unchanged attached list changes nothing:
      no copy is dropped, none is inserted, nothing is allocated or freed. */
  lemma ReconcileIdempotent(orig: seq<AttachedRegion>, m: Mirror, reg: Registry, areas: Areas)
    requires Fresh(m.ram)
    ensures var r := Reconcile(orig, m, reg, areas);
      Reconcile(orig, r, reg, areas) == r
  {
    var r := Reconcile(orig, m, reg, areas);
    var d0 := DeleteStaleFreeing(m, orig);
    ReconcileShape(orig, m, reg, areas, d0, CreateFrom(orig, 0, d0.copies, d0.ram, reg, areas));
    DeleteStaleFreeingNoop(r, orig);
    CreateCovers(orig, 0, d0.copies, d0.ram, reg, areas);
    CreateNoop(orig, 0, r.copies, r.ram, reg, areas);
    assert [] + r.copies == r.copies;
  }

  /** The delete pass leaves a list whose every copy matches unchanged. */
  lemma DeleteStaleFreeingNoop(m: Mirror, orig: seq<AttachedRegion>)
    requires forall i :: 0 <= i < |m.copies| ==> HasAttached(orig, m.copies[i].Key())
    ensures DeleteStaleFreeing(m, orig) == m
  {
    DeleteStaleKeepsMatched(m.copies, orig);
    assert StaleCaps(m.copies, orig) == {};
    assert m.ram.mem - {} == m.ram.mem;
  }
}

=== FILE: region_map.dfy ===
/** `_copy_region_map` (lines 56-66): one group of regions is brought in
    line with its attached list (delete, then create) and its copies are
    then filled. */
module RegionMap {
  import opened Types
  import opened Dataspace
  import opened RegionDiff
  import opened RegionCopy

  /** Every copy that mirrors an attached entry is allocated and at least as
      long as the entry. */
  ghost predicate Sized(orig: seq<AttachedRegion>, copies: seq<CopiedRegion>, mem: Memory) {
    forall i, j :: 0 <= i < |copies| && 0 <= j < |orig| && copies[i].Key() == orig[j].Key() ==>
      copies[i].copyDs in mem && orig[j].size <= |mem[copies[i].copyDs]|
  }

  /** What one group needs before `_copy_region_map`: attached regions at
      distinct places and backed by target memory, and copies that are one
      per key, none for a reserved area, each with a dataspace of its own. */
  ghost predicate GroupReady(orig: seq<AttachedRegion>, m: Mirror, target: Memory, reg: Registry,
                             areas: Areas) {
    && UniqueAttachedKeys(orig)
    && (forall j :: 0 <= j < |orig| ==> Backed(orig[j], target, reg))
    && UniqueKeys(m.copies)
    && NoReservedCopies(m.copies, areas)
    && DistinctCaps(m.copies)
    && Owned(m)
    && Sized(orig, m.copies, m.ram.mem)
  }

  lemma OwnedCaps(m: Mirror)
    requires Owned(m)
    ensures CapsOf(m.copies) <= m.ram.mem.Keys
  {
    forall x | x in CapsOf(m.copies)
      ensures x in m.ram.mem
    {
      var c :| c in m.copies && c.copyDs == x;
      var i :| 0 <= i < |m.copies| && m.copies[i] == c;
    }
  }

  /** A kept copy's dataspace holds after reconciliation what it held
      before. */
  lemma ReconcileKeepsOld(orig: seq<AttachedRegion>, m: Mirror, reg: Registry, areas: Areas,
                          d: Mirror, r: Created)
    requires Fresh(m.ram) && DistinctCaps(m.copies) && Owned(m)
    requires d == DeleteStaleFreeing(m, orig)
    requires r == CreateFrom(orig, 0, d.copies, d.ram, reg, areas)
    ensures Owned(d) && Fresh(d.ram)
    ensures forall x :: x in CapsOf(d.copies) ==> x in r.ram.mem && r.ram.mem[x] == m.ram.mem[x]
    ensures forall x :: x in m.ram.mem && x !in CapsOf(m.copies) ==>
      x in r.ram.mem && r.ram.mem[x] == m.ram.mem[x]
  {
    OwnedCaps(m);
    DeleteStaleFreeingAccounts(m, orig);
    forall j | 0 <= j < |d.copies|
      ensures d.copies[j].copyDs in d.ram.mem
    {
      assert d.copies[j] in d.copies;
    }
  }

  /** After reconciliation every copy of an attached entry is large enough:
      new copies have exactly the entry's size, kept copies keep theirs. */
  lemma ReconcileSized(orig: seq<AttachedRegion>, m: Mirror, target: Memory, reg: Registry,
                       areas: Areas, d: Mirror, r: Created)
    requires Fresh(m.ram) && GroupReady(orig, m, target, reg, areas)
    requires d == DeleteStaleFreeing(m, orig)
    requires r == CreateFrom(orig, 0, d.copies, d.ram, reg, areas)
    ensures Sized(orig, r.added + d.copies, r.ram.mem)
  {
    ReconcileShape(orig, m, reg, areas, d, r);
    ReconcileKeepsOld(orig, m, reg, areas, d, r);
    var s := r.added + d.copies;
    forall i, j | 0 <= i < |s| && 0 <= j < |orig| && s[i].Key() == orig[j].Key()
      ensures s[i].copyDs in r.ram.mem && orig[j].size <= |r.ram.mem[s[i].copyDs]|
    {
      if i < |r.added| {
        assert s[i] == r.added[i];
        assert NewCopy(r.added[i], orig, 0, reg, areas, m.ram.next, r.ram);
        var j' :| 0 <= j' < |orig| && !IsReserved(orig[j'], areas) && orig[j'].Key() == s[i].Key()
                  && r.ram.mem[s[i].copyDs] == Zeros(orig[j'].size);
        assert orig[j'].Key() == orig[j].Key();
      } else {
        var c := s[i];
        assert c == d.copies[i - |r.added|];
        assert c in d.copies && c.copyDs in CapsOf(d.copies);
        assert c in m.copies;
        var i0 :| 0 <= i0 < |m.copies| && m.copies[i0] == c;
        assert c.copyDs in m.ram.mem && orig[j].size <= |m.ram.mem[c.copyDs]|;
      }
    }
  }

  /** Backed regions whose copies are large enough are ready to be copied. */
  lemma SizedReady(orig: seq<AttachedRegion>, copies: seq<CopiedRegion>, target: Memory,
                   mem: Memory, reg: Registry)
    requires forall j :: 0 <= j < |orig| ==> Backed(orig[j], target, reg)
    requires Sized(orig, copies, mem)
    ensures AllReady(orig, copies, target, mem, reg)
  {
    forall j | 0 <= j < |orig|
      ensures CopyReady(orig[j], copies, target, mem, reg)
    {
      var f := FindCopy(copies, orig[j].Key());
      if f.Some? {
        assert copies[f.value].Key() == orig[j].Key();
      }
    }
  }

  /** The result of one `_copy_region_map`: the group's copies and the RAM
      session after it, the registry with the copied pieces unflagged, and
      the attached entries for which no copy was found. */
  datatype Synced = Synced(m: Mirror, reg: Registry, missing: seq<RegionKey>)

  /** `_copy_region_map`: reconcile the copies with the attached list, then
      copy every region that has a copy. */
  function SyncRegionMap(orig: seq<AttachedRegion>, m: Mirror, target: Memory, reg: Registry,
                         areas: Areas): (r: Synced)
    requires Fresh(m.ram) && GroupReady(orig, m, target, reg, areas)
    ensures Fresh(r.m.ram) && m.ram.next <= r.m.ram.next
    ensures SameLayout(reg, r.reg)
  {
    var d := DeleteStaleFreeing(m, orig);
    var c := CreateFrom(orig, 0, d.copies, d.ram, reg, areas);
    ReconcileShape(orig, m, reg, areas, d, c);
    ReconcileSized(orig, m, target, reg, areas, d, c);
    var rec := Reconcile(orig, m, reg, areas);
    SizedReady(orig, rec.copies, target, rec.ram.mem, reg);
    var pass := CopyPass(orig, rec.copies, target, rec.ram.mem, reg);
    Synced(Mirror(rec.copies, Ram(pass.mem, rec.ram.next)), pass.reg, pass.missing)
  }

  /** The backing dataspaces after reconciliation: kept ones from before,
      new ones allocated during the create pass. */
  lemma ReconcileCapsRange(orig: seq<AttachedRegion>, m: Mirror, reg: Registry, areas: Areas,
                           d: Mirror, r: Created)
    requires Fresh(m.ram)
    requires d == DeleteStaleFreeing(m, orig)
    requires r == CreateFrom(orig, 0, d.copies, d.ram, reg, areas)
    ensures forall x :: x in CapsOf(r.added + d.copies) ==>
      x in CapsOf(m.copies) || m.ram.next <= x < r.ram.next
  {
    CreateNewCopies(orig, 0, d.copies, d.ram, reg, areas, r);
    var s := r.added + d.copies;
    forall x | x in CapsOf(s)
      ensures x in CapsOf(m.copies) || m.ram.next <= x < r.ram.next
    {
      var c :| c in s && c.copyDs == x;
      var i :| 0 <= i < |s| && s[i] == c;
      if i < |r.added| {
        assert NewCopy(r.added[i], orig, 0, reg, areas, m.ram.next, r.ram);
      } else {
        assert c == d.copies[i - |r.added|];
        assert c in d.copies;
      }
    }
  }

  /** Reconciliation keeps backing dataspaces distinct and allocated and
      loses no dataspace the group does not own. */
  lemma ReconcileCaps(orig: seq<AttachedRegion>, m: Mirror, reg: Registry, areas: Areas, d: Mirror,
                      r: Created)
    requires Fresh(m.ram) && DistinctCaps(m.copies) && Owned(m)
    requires d == DeleteStaleFreeing(m, orig)
    requires r == CreateFrom(orig, 0, d.copies, d.ram, reg, areas)
    ensures DistinctCaps(r.added + d.copies) && Owned(Mirror(r.added + d.copies, r.ram))
    ensures r.ram.mem.Keys - CapsOf(r.added + d.copies) == m.ram.mem.Keys - CapsOf(m.copies)
  {
    ReconcileKeepsOld(orig, m, reg, areas, d, r);
    OwnedCaps(m);
    DeleteStaleFreeingAccounts(m, orig);
    DeleteStaleDistinct(m.copies, orig);
    CreateKeepsInvariants(orig, 0, d.copies, d.ram, reg, areas, r);
  }

  /** One `_copy_region_map` spelled out: the reconciled list, ready to be
      copied, and the copy pass over it. */
  lemma SyncParts(orig: seq<AttachedRegion>, m: Mirror, target: Memory, reg: Registry, areas: Areas)
    returns (d: Mirror, c: Created, pass: CopyResult)
    requires Fresh(m.ram) && GroupReady(orig, m, target, reg, areas)
    ensures d == DeleteStaleFreeing(m, orig)
    ensures c == CreateFrom(orig, 0, d.copies, d.ram, reg, areas)
    ensures Reconcile(orig, m, reg, areas) == Mirror(c.added + d.copies, c.ram)
    ensures Sized(orig, c.added + d.copies, c.ram.mem)
    ensures AllReady(orig, c.added + d.copies, target, c.ram.mem, reg)
    ensures pass == CopyPass(orig, c.added + d.copies, target, c.ram.mem, reg)
    ensures SyncRegionMap(orig, m, target, reg, areas) ==
        Synced(Mirror(c.added + d.copies, Ram(pass.mem, c.ram.next)), pass.reg, pass.missing)
  {
    d := DeleteStaleFreeing(m, orig);
    c := CreateFrom(orig, 0, d.copies, d.ram, reg, areas);
    ReconcileShape(orig, m, reg, areas, d, c);
    ReconcileSized(orig, m, target, reg, areas, d, c);
    SizedReady(orig, c.added + d.copies, target, c.ram.mem, reg);
    pass := CopyPass(orig, c.added + d.copies, target, c.ram.mem, reg);
  }

  /** After `_copy_region_map` the group is in line with its attached list
      and is ready for the next checkpoint against the same attached list. */
  lemma SyncEstablishes(orig: seq<AttachedRegion>, m: Mirror, target: Memory, reg: Registry,
                        areas: Areas)
    requires Fresh(m.ram) && GroupReady(orig, m, target, reg, areas)
    ensures var r := SyncRegionMap(orig, m, target, reg, areas);
      Reconciled(r.m.copies, orig, areas) && GroupReady(orig, r.m, target, r.reg, areas)
  {
    var r := SyncRegionMap(orig, m, target, reg, areas);
    var d, c, pass := SyncParts(orig, m, target, reg, areas);
    ReconcileCaps(orig, m, reg, areas, d, c);
    ReconcileEstablishes(orig, m, reg, areas);
    forall j | 0 <= j < |orig|
      ensures Backed(orig[j], target, r.reg)
    {
      BackedStable(orig[j], target, reg, r.reg);
    }
  }

  /** An attached entry with key `k` that the create pass skips. */
  ghost predicate ReservedIn(orig: seq<AttachedRegion>, areas: Areas, k: RegionKey) {
    exists j :: 0 <= j < |orig| && orig[j].Key() == k && IsReserved(orig[j], areas)
  }

  /** `_copy_region_map` reports exactly the reserved entries (the stack and
      linker areas attached into the address space) as having no copy. */
  lemma SyncMissing(orig: seq<AttachedRegion>, m: Mirror, target: Memory, reg: Registry,
                    areas: Areas, k: RegionKey)
    requires Fresh(m.ram) && GroupReady(orig, m, target, reg, areas)
    ensures k in SyncRegionMap(orig, m, target, reg, areas).missing <==> ReservedIn(orig, areas, k)
  {
    var d, c, pass := SyncParts(orig, m, target, reg, areas);
    var copies := c.added + d.copies;
    ReconcileEstablishes(orig, m, reg, areas);
    if k in pass.missing {
      var j :| 0 <= j < |orig| && orig[j].Key() == k && !HasCopy(copies, k);
      assert IsReserved(orig[j], areas);
    }
    if ReservedIn(orig, areas, k) {
      var j :| 0 <= j < |orig| && orig[j].Key() == k && IsReserved(orig[j], areas);
      assert !HasCopy(copies, k);
    }
  }

  /** `_copy_region_map` neither releases nor alters a dataspace the group
      does not own, and the group's dataspaces afterwards are its own from
      before or new ones from the range the RAM session handed out during
      the call. */
  lemma SyncFrame(orig: seq<AttachedRegion>, m: Mirror, target: Memory, reg: Registry, areas: Areas)
    requires Fresh(m.ram) && GroupReady(orig, m, target, reg, areas)
    ensures var r := SyncRegionMap(orig, m, target, reg, areas);
      && (forall x :: x in m.ram.mem && x !in CapsOf(m.copies) ==>
            x in r.m.ram.mem && r.m.ram.mem[x] == m.ram.mem[x])
      && (forall x :: x in CapsOf(r.m.copies) ==>
            x in CapsOf(m.copies) || m.ram.next <= x < r.m.ram.next)
  {
    var d, c, pass := SyncParts(orig, m, target, reg, areas);
    var copies := c.added + d.copies;
    ReconcileKeepsOld(orig, m, reg, areas, d, c);
    ReconcileCaps(orig, m, reg, areas, d, c);
    ReconcileCapsRange(orig, m, reg, areas, d, c);
    forall x | x in m.ram.mem && x !in CapsOf(m.copies)
      ensures x in pass.mem && pass.mem[x] == m.ram.mem[x]
    {
      assert x !in CapsOf(copies);
    }
  }

  /** What the RAM session holds beyond the group's own dataspaces is the
      same before and after `_copy_region_map`: the dataspaces of dropped
      copies are released, and only new copies get new ones. */
  lemma SyncNoLeak(orig: seq<AttachedRegion>, m: Mirror, target: Memory, reg: Registry,
                   areas: Areas)
    requires Fresh(m.ram) && GroupReady(orig, m, target, reg, areas)
    ensures var r := SyncRegionMap(orig, m, target, reg, areas);
      r.m.ram.mem.Keys - CapsOf(r.m.copies) == m.ram.mem.Keys - CapsOf(m.copies)
  {
    var d, c, pass := SyncParts(orig, m, target, reg, areas);
    ReconcileCaps(orig, m, reg, areas, d, c);
  }

  /** Against an attached list it is already in line with, `_copy_region_map`
      keeps the copy list, allocates nothing and frees nothing. */
  lemma SyncStable(orig: seq<AttachedRegion>, m: Mirror, target: Memory, reg: Registry,
                   areas: Areas)
    requires Fresh(m.ram) && GroupReady(orig, m, target, reg, areas)
    requires Reconciled(m.copies, orig, areas)
    ensures var r := SyncRegionMap(orig, m, target, reg, areas);
      r.m.copies == m.copies && r.m.ram.next == m.ram.next && r.m.ram.mem.Keys == m.ram.mem.Keys
  {
    var d, c, pass := SyncParts(orig, m, target, reg, areas);
    DeleteStaleFreeingNoop(m, orig);
    CreateNoop(orig, 0, m.copies, m.ram, reg, areas);
    assert [] + m.copies == m.copies;
  }

  /** After `_copy_region_map` the copy of every plain region holds the
      region's bytes. */
  lemma SyncCopiesPlain(orig: seq<AttachedRegion>, m: Mirror, target: Memory, reg: Registry,
                        areas: Areas, j: nat, b: nat)
    requires Fresh(m.ram) && GroupReady(orig, m, target, reg, areas)
    requires j < |orig| && !IsReserved(orig[j], areas) && orig[j].ds !in reg && b < orig[j].size
    ensures var r := SyncRegionMap(orig, m, target, reg, areas);
      && HasCopy(r.m.copies, orig[j].Key())
      && orig[j].ds in target && b < |target[orig[j].ds]|
      && CopyOf(orig, r.m.copies, j) in r.m.ram.mem
      && b < |r.m.ram.mem[CopyOf(orig, r.m.copies, j)]|
      && r.m.ram.mem[CopyOf(orig, r.m.copies, j)][b] == target[orig[j].ds][b]
  {
    var d, c, pass := SyncParts(orig, m, target, reg, areas);
    ReconcileCaps(orig, m, reg, areas, d, c);
    CreateCovers(orig, 0, d.copies, d.ram, reg, areas);
    assert HasCopy(c.added + d.copies, orig[j].Key());
    assert CopyReady(orig[j], c.added + d.copies, target, c.ram.mem, reg);
    CopyPassCopiesPlain(orig, c.added + d.copies, target, c.ram.mem, reg, j, b);
  }

  /** With the create pass skipping reserved entries, the copy pass as
      written meets a reserved entry without a copy and dereferences the
      missing copy: a group holding the stack or linker area (the address
      space) cannot be copied by the code as written. */
  lemma SyncAsWrittenUndefined(orig: seq<AttachedRegion>, m: Mirror, target: Memory, reg: Registry,
                               areas: Areas, j: nat)
    requires Fresh(m.ram) && GroupReady(orig, m, target, reg, areas)
    requires j < |orig| && IsReserved(orig[j], areas)
    ensures var rec := Reconcile(orig, m, reg, areas);
      && AllReady(orig, rec.copies, target, rec.ram.mem, reg)
      && CopyPassAsWritten(orig, rec.copies, target, rec.ram.mem, reg) == None
  {
    var d, c, pass := SyncParts(orig, m, target, reg, areas);
    ReconcileEstablishes(orig, m, reg, areas);
    assert !HasCopy(c.added + d.copies, orig[j].Key());
    CopyPassAsWrittenOutcome(orig, c.added + d.copies, target, c.ram.mem, reg);
  }

  /** The copy of the `j`-th attached region holds the region's bytes. */
  ghost predicate HoldsRegion(orig: seq<AttachedRegion>, copies: seq<CopiedRegion>, mem: Memory,
                              target: Memory, j: nat)
    requires j < |orig|
  {
    && HasCopy(copies, orig[j].Key())
    && CopyOf(orig, copies, j) in mem
    && orig[j].ds in target
    && orig[j].size <= |target[orig[j].ds]|
    && orig[j].size <= |mem[CopyOf(orig, copies, j)]|
    && mem[CopyOf(orig, copies, j)][..orig[j].size] == target[orig[j].ds][..orig[j].size]
  }

  /** Every region of a group that is copied has been: a plain region's copy
      holds the region's bytes, and a managed region has no piece left
      flagged in `reg`. */
  ghost predicate GroupCopied(orig: seq<AttachedRegion>, copies: seq<CopiedRegion>, mem: Memory,
                              target: Memory,
                              reg: Registry, areas: Areas) {
    forall j :: 0 <= j < |orig| && !IsReserved(orig[j], areas) ==>
      if orig[j].ds in reg then Unflagged(reg, orig[j].ds)
      else HoldsRegion(orig, copies, mem, target, j)
  }

  /** After `_copy_region_map` a plain region's copy holds all of the
      region's bytes. */
  lemma SyncHoldsPlain(orig: seq<AttachedRegion>, m: Mirror, target: Memory, reg: Registry,
                       areas: Areas, j: nat)
    requires Fresh(m.ram) && GroupReady(orig, m, target, reg, areas)
    requires j < |orig| && !IsReserved(orig[j], areas) && orig[j].ds !in reg
    ensures var r := SyncRegionMap(orig, m, target, reg, areas);
      HoldsRegion(orig, r.m.copies, r.m.ram.mem, target, j)
  {
    if orig[j].size == 0 {
      SyncCopiesPlainEmpty(orig, m, target, reg, areas, j);
    } else {
      var r := SyncRegionMap(orig, m, target, reg, areas);
      SyncCopiesPlain(orig, m, target, reg, areas, j, 0);
      SizedCopy(orig, m, target, reg, areas, j);
      SyncCopiesBytes(orig, m, target, reg, areas, j, r);
      var x := CopyOf(orig, r.m.copies, j);
      SamePrefix(r.m.ram.mem[x], target[orig[j].ds], orig[j].size);
    }
  }

  /** Two sequences that agree on their first `n` elements have the same
      prefix of length `n`. */
  lemma SamePrefix(a: seq<Byte>, b: seq<Byte>, n: nat)
    requires n <= |a| && n <= |b|
    requires forall i :: 0 <= i < n ==> a[i] == b[i]
    ensures a[..n] == b[..n]
  {
  }

  /** Byte by byte, a plain region's copy holds the region's bytes. */
  lemma SyncCopiesBytes(orig: seq<AttachedRegion>, m: Mirror, target: Memory, reg: Registry,
                        areas: Areas, j: nat, r: Synced)
    requires Fresh(m.ram) && GroupReady(orig, m, target, reg, areas)
    requires j < |orig| && !IsReserved(orig[j], areas) && orig[j].ds !in reg
    requires r == SyncRegionMap(orig, m, target, reg, areas)
    requires HasCopy(r.m.copies, orig[j].Key()) && CopyOf(orig, r.m.copies, j) in r.m.ram.mem
    requires orig[j].size <= |r.m.ram.mem[CopyOf(orig, r.m.copies, j)]|
    requires orig[j].ds in target && orig[j].size <= |target[orig[j].ds]|
    ensures forall b :: 0 <= b < orig[j].size ==>
      r.m.ram.mem[CopyOf(orig, r.m.copies, j)][b] == target[orig[j].ds][b]
  {
    forall b | 0 <= b < orig[j].size
      ensures r.m.ram.mem[CopyOf(orig, r.m.copies, j)][b] == target[orig[j].ds][b]
    {
      SyncCopiesPlain(orig, m, target, reg, areas, j, b);
    }
  }

  /** The copy of a region is at least as large as the region. */
  lemma SizedCopy(orig: seq<AttachedRegion>, m: Mirror, target: Memory, reg: Registry, areas: Areas,
                  j: nat)
    requires Fresh(m.ram) && GroupReady(orig, m, target, reg, areas)
    requires j < |orig|
    requires HasCopy(SyncRegionMap(orig, m, target, reg, areas).m.copies, orig[j].Key())
    ensures var r := SyncRegionMap(orig, m, target, reg, areas);
      && CopyOf(orig, r.m.copies, j) in r.m.ram.mem
      && orig[j].size <= |r.m.ram.mem[CopyOf(orig, r.m.copies, j)]|
  {
    var r := SyncRegionMap(orig, m, target, reg, areas);
    SyncEstablishes(orig, m, target, reg, areas);
    var i := FindCopy(r.m.copies, orig[j].Key()).value;
    assert r.m.copies[i].Key() == orig[j].Key();
  }

  /** The empty case of SyncHoldsPlain: the region still has a copy. */
  lemma SyncCopiesPlainEmpty(orig: seq<AttachedRegion>, m: Mirror, target: Memory, reg: Registry,
                             areas: Areas, j: nat)
    requires Fresh(m.ram) && GroupReady(orig, m, target, reg, areas)
    requires j < |orig| && !IsReserved(orig[j], areas) && orig[j].ds !in reg && orig[j].size == 0
    ensures var r := SyncRegionMap(orig, m, target, reg, areas);
      HoldsRegion(orig, r.m.copies, r.m.ram.mem, target, j)
  {
    var r := SyncRegionMap(orig, m, target, reg, areas);
    SyncEstablishes(orig, m, target, reg, areas);
    assert HasCopy(r.m.copies, orig[j].Key());
    SizedCopy(orig, m, target, reg, areas, j);
  }

  /** After `_copy_region_map` no piece of a copied managed region is
      flagged. */
  lemma SyncClearsFlags(orig: seq<AttachedRegion>, m: Mirror, target: Memory, reg: Registry,
                        areas: Areas, j: nat)
    requires Fresh(m.ram) && GroupReady(orig, m, target, reg, areas)
    requires j < |orig| && !IsReserved(orig[j], areas) && orig[j].ds in reg
    ensures Unflagged(SyncRegionMap(orig, m, target, reg, areas).reg, orig[j].ds)
  {
    var d, c, pass := SyncParts(orig, m, target, reg, areas);
    CreateCovers(orig, 0, d.copies, d.ram, reg, areas);
    CopyPassClearsFlags(orig, c.added + d.copies, target, c.ram.mem, reg, j);
  }

  /** After `_copy_region_map` the copy of a managed region holds, at the
      place of every piece flagged before the call, that piece's bytes. The
      pieces `dds` must not overlap, and no earlier region of the group may
      be the same managed dataspace (its copy would have cleared the flags
      first). */
  lemma SyncCopiesManaged(orig: seq<AttachedRegion>, m: Mirror, target: Memory, reg: Registry,
                          areas: Areas,
                          j: nat, dds: seq<DesignatedDataspace>, k: nat, b: nat)
    requires Fresh(m.ram) && GroupReady(orig, m, target, reg, areas)
    requires j < |orig| && !IsReserved(orig[j], areas) && orig[j].ds in reg
    requires reg[orig[j].ds].dds == dds
    requires forall l :: 0 <= l < j ==> orig[l].ds != orig[j].ds
    requires Disjoint(dds)
    requires k < |dds| && dds[k].attached && b < dds[k].size
    ensures var r := SyncRegionMap(orig, m, target, reg, areas);
      && HasCopy(r.m.copies, orig[j].Key())
      && dds[k].ds in target && b < |target[dds[k].ds]|
      && CopyOf(orig, r.m.copies, j) in r.m.ram.mem
      && dds[k].relAddr + b < |r.m.ram.mem[CopyOf(orig, r.m.copies, j)]|
      && r.m.ram.mem[CopyOf(orig, r.m.copies, j)][dds[k].relAddr + b] == target[dds[k].ds][b]
  {
    var d, c, pass := SyncParts(orig, m, target, reg, areas);
    var copies := c.added + d.copies;
    ReconcileCaps(orig, m, reg, areas, d, c);
    CreateCovers(orig, 0, d.copies, d.ram, reg, areas);
    assert HasCopy(copies, orig[j].Key());
    assert CopyReady(orig[j], copies, target, c.ram.mem, reg);
    assert Fits(dds[k], target, orig[j].size);
    CopyPassCopiesManaged(orig, copies, target, c.ram.mem, reg, j, orig[j].ds, dds, k, b);
  }

  /** No entry of the group that `_copy_region_map` copies is on dataspace
      `d`: only reserved entries, which get no copy, may be. */
  ghost predicate Untouched(orig: seq<AttachedRegion>, areas: Areas, d: Cap) {
    forall j :: 0 <= j < |orig| && !IsReserved(orig[j], areas) ==> orig[j].ds != d
  }

  /** `_copy_region_map` leaves the registry entry of a managed dataspace
      that no copied region of the group is on exactly as it was. */
  lemma SyncKeepsRegistry(orig: seq<AttachedRegion>, m: Mirror, target: Memory, reg: Registry,
                          areas: Areas, d: Cap)
    requires Fresh(m.ram) && GroupReady(orig, m, target, reg, areas)
    requires d in reg && Untouched(orig, areas, d)
    ensures var r := SyncRegionMap(orig, m, target, reg, areas);
      d in r.reg && r.reg[d] == reg[d]
  {
    var dm, c, pass := SyncParts(orig, m, target, reg, areas);
    var copies := c.added + dm.copies;
    ReconcileEstablishes(orig, m, reg, areas);
    forall j | 0 <= j < |orig| && orig[j].ds == d
      ensures !HasCopy(copies, orig[j].Key())
    {
      assert IsReserved(orig[j], areas);
    }
    CopyPassKeepsRegistry(orig, copies, target, c.ram.mem, reg, d);
  }

  /** `_copy_region_map` flags no piece: a managed dataspace without flagged
      pieces stays so. */
  lemma SyncKeepsUnflagged(orig: seq<AttachedRegion>, m: Mirror, target: Memory, reg: Registry,
                           areas: Areas, d: Cap)
    requires Fresh(m.ram) && GroupReady(orig, m, target, reg, areas)
    requires Unflagged(reg, d)
    ensures Unflagged(SyncRegionMap(orig, m, target, reg, areas).reg, d)
  {
    var dm, c, pass := SyncParts(orig, m, target, reg, areas);
    CopyPassKeepsUnflagged(orig, c.added + dm.copies, target, c.ram.mem, reg, d);
  }

  /** After `_copy_region_map` every region of the group that is copied has
      been copied. */
  lemma SyncCopied(orig: seq<AttachedRegion>, m: Mirror, target: Memory, reg: Registry,
                   areas: Areas)
    requires Fresh(m.ram) && GroupReady(orig, m, target, reg, areas)
    ensures var r := SyncRegionMap(orig, m, target, reg, areas);
      GroupCopied(orig, r.m.copies, r.m.ram.mem, target, r.reg, areas)
  {
    var r := SyncRegionMap(orig, m, target, reg, areas);
    forall j | 0 <= j < |orig| && !IsReserved(orig[j], areas)
      ensures if orig[j].ds in r.reg then Unflagged(r.reg, orig[j].ds)
              else HoldsRegion(orig, r.m.copies, r.m.ram.mem, target, j)
    {
      if orig[j].ds in reg {
        SyncClearsFlags(orig, m, target, reg, areas, j);
      } else {
        SyncHoldsPlain(orig, m, target, reg, areas, j);
      }
    }
  }

  /** `_copy_region_map` on one group keeps what an earlier group copied,
      when the earlier group's dataspaces are none of this group's own. */
  lemma SyncKeepsCopied(orig: seq<AttachedRegion>, m: Mirror, target: Memory, reg: Registry,
                        areas: Areas,
                        orig2: seq<AttachedRegion>, copies2: seq<CopiedRegion>)
    requires Fresh(m.ram) && GroupReady(orig, m, target, reg, areas)
    requires GroupCopied(orig2, copies2, m.ram.mem, target, reg, areas)
    requires CapsOf(copies2) !! CapsOf(m.copies)
    ensures var r := SyncRegionMap(orig, m, target, reg, areas);
      GroupCopied(orig2, copies2, r.m.ram.mem, target, r.reg, areas)
  {
    var r := SyncRegionMap(orig, m, target, reg, areas);
    SyncFrame(orig, m, target, reg, areas);
    forall j | 0 <= j < |orig2| && !IsReserved(orig2[j], areas)
      ensures if orig2[j].ds in r.reg then Unflagged(r.reg, orig2[j].ds)
              else HoldsRegion(orig2, copies2, r.m.ram.mem, target, j)
    {
      if orig2[j].ds in reg {
        SyncKeepsUnflagged(orig, m, target, reg, areas, orig2[j].ds);
      } else {
        var x := CopyOf(orig2, copies2, j);
        assert x !in CapsOf(m.copies);
      }
    }
  }
}

=== FILE: target_copy.dfy ===
/** Target_copy: the checkpointer's copy of a target component. A
    checkpoint copies the thread list, logs that capabilities are not
    copied yet, and brings the stack-area, linker-area and address-space
    groups of region copies up to date, in that order. */
module TargetCopy {
  import opened Types
  import opened Dataspace
  import opened RegionDiff
  import opened RegionCopy
  import opened RegionMap
  import opened Threads

  /** What Target_copy reads from the target component (wired up by the
      constructor, lines 205-221): its threads, its three attached-region
      groups, the contents of its dataspaces and the two area dataspaces. */
  datatype Target = Target(
    threads: seq<ThreadInfo>,
    addressSpace: seq<AttachedRegion>,
    stackArea: seq<AttachedRegion>,
    linkerArea: seq<AttachedRegion>,
    memory: Memory,
    areas: Areas)

  /** What Target_copy keeps between checkpoints: the copied threads, a copy
      list per group, and the checkpointer's RAM session. */
  datatype Snapshot = Snapshot(
    threads: seq<ThreadInfo>,
    addressSpace: seq<CopiedRegion>,
    stackArea: seq<CopiedRegion>,
    linkerArea: seq<CopiedRegion>,
    ram: Ram)

  /** The messages a checkpoint logs: the capability stub (line 28) and the
      error for an attached region without a copy (line 152), which names
      only the region's dataspace. */
  datatype Diagnostic = CapabilitiesNotImplemented | NoCopiedRegion(ds: Cap)

  /** Every backing dataspace the snapshot's copies own. */
  function AllCaps(s: Snapshot): set<Cap> {
    CapsOf(s.stackArea) + CapsOf(s.linkerArea) + CapsOf(s.addressSpace)
  }

  /** Each group ready for `_copy_region_map`, and no dataspace shared
      between groups. */
  ghost predicate Consistent(t: Target, reg: Registry, s: Snapshot) {
    && Fresh(s.ram)
    && GroupReady(t.stackArea, Mirror(s.stackArea, s.ram), t.memory, reg, t.areas)
    && GroupReady(t.linkerArea, Mirror(s.linkerArea, s.ram), t.memory, reg, t.areas)
    && GroupReady(t.addressSpace, Mirror(s.addressSpace, s.ram), t.memory, reg, t.areas)
    && CapsOf(s.stackArea) !! CapsOf(s.linkerArea)
    && CapsOf(s.stackArea) !! CapsOf(s.addressSpace)
    && CapsOf(s.linkerArea) !! CapsOf(s.addressSpace)
  }

  /** A group stays ready while its own dataspaces and the layout of the
      registry stay as they are. */
  lemma GroupCarried(orig: seq<AttachedRegion>, copies: seq<CopiedRegion>, ram: Ram, target: Memory,
                     reg: Registry,
                     areas: Areas, ram': Ram, reg': Registry)
    requires GroupReady(orig, Mirror(copies, ram), target, reg, areas)
    requires forall x :: x in CapsOf(copies) ==> x in ram'.mem && ram'.mem[x] == ram.mem[x]
    requires SameLayout(reg, reg')
    ensures GroupReady(orig, Mirror(copies, ram'), target, reg', areas)
  {
    forall i | 0 <= i < |copies|
      ensures copies[i].copyDs in ram'.mem
      ensures ram'.mem[copies[i].copyDs] == ram.mem[copies[i].copyDs]
    {
      assert copies[i] in copies;
    }
    forall j | 0 <= j < |orig|
      ensures Backed(orig[j], target, reg')
    {
      BackedStable(orig[j], target, reg, reg');
    }
  }

  /** `_copy_region_map` on one group leaves another group, which owns none
      of its dataspaces, ready. */
  lemma SyncCarries(orig: seq<AttachedRegion>, m: Mirror, target: Memory, reg: Registry,
                    areas: Areas,
                    orig2: seq<AttachedRegion>, copies2: seq<CopiedRegion>)
    requires Fresh(m.ram) && GroupReady(orig, m, target, reg, areas)
    requires GroupReady(orig2, Mirror(copies2, m.ram), target, reg, areas)
    requires CapsOf(copies2) !! CapsOf(m.copies)
    ensures var r := SyncRegionMap(orig, m, target, reg, areas);
      GroupReady(orig2, Mirror(copies2, r.m.ram), target, r.reg, areas)
  {
    SyncFrame(orig, m, target, reg, areas);
    OwnedCaps(Mirror(copies2, m.ram));
    var r := SyncRegionMap(orig, m, target, reg, areas);
    GroupCarried(orig2, copies2, m.ram, target, reg, areas, r.m.ram, r.reg);
  }

  /** The three groups after `_copy_region_maps`, the RAM session and the
      registry after it, and the entries reported without a copy. */
  datatype Regions = Regions(
    stackArea: seq<CopiedRegion>,
    linkerArea: seq<CopiedRegion>,
    addressSpace: seq<CopiedRegion>,
    ram: Ram,
    reg: Registry,
    missing: seq<RegionKey>)

  /** `_copy_region_maps` (lines 34-44): the stack area, then the linker
      area, then the address space, sharing one RAM session and registry. */
  function CopyRegionMaps(t: Target, reg: Registry, s: Snapshot): (r: Regions)
    requires Consistent(t, reg, s)
    ensures Fresh(r.ram) && s.ram.next <= r.ram.next
  {
    var a := SyncRegionMap(t.stackArea, Mirror(s.stackArea, s.ram), t.memory, reg, t.areas);
    SyncCarries(t.stackArea, Mirror(s.stackArea, s.ram), t.memory, reg, t.areas, t.linkerArea,
                s.linkerArea);
    SyncCarries(t.stackArea, Mirror(s.stackArea, s.ram), t.memory, reg, t.areas, t.addressSpace,
                s.addressSpace);
    var b := SyncRegionMap(t.linkerArea, Mirror(s.linkerArea, a.m.ram), t.memory, a.reg, t.areas);
    SyncCarries(t.linkerArea, Mirror(s.linkerArea, a.m.ram), t.memory, a.reg, t.areas,
                t.addressSpace, s.addressSpace);
    var c := SyncRegionMap(t.addressSpace, Mirror(s.addressSpace, b.m.ram), t.memory, b.reg,
                           t.areas);
    Regions(a.m.copies, b.m.copies, c.m.copies, c.m.ram, c.reg, a.missing + b.missing + c.missing)
  }

  /** `_copy_region_maps` spelled out group by group. */
  lemma RegionsParts(t: Target, reg: Registry, s: Snapshot)
    returns (a: Synced, b: Synced, c: Synced)
    requires Consistent(t, reg, s)
    ensures a == SyncRegionMap(t.stackArea, Mirror(s.stackArea, s.ram), t.memory, reg, t.areas)
    ensures Fresh(a.m.ram)
    ensures GroupReady(t.linkerArea, Mirror(s.linkerArea, a.m.ram), t.memory, a.reg, t.areas)
    ensures GroupReady(t.addressSpace, Mirror(s.addressSpace, a.m.ram), t.memory, a.reg, t.areas)
    ensures b ==
        SyncRegionMap(t.linkerArea, Mirror(s.linkerArea, a.m.ram), t.memory, a.reg, t.areas)
    ensures Fresh(b.m.ram)
    ensures GroupReady(t.addressSpace, Mirror(s.addressSpace, b.m.ram), t.memory, b.reg, t.areas)
    ensures c ==
        SyncRegionMap(t.addressSpace, Mirror(s.addressSpace, b.m.ram), t.memory, b.reg, t.areas)
    ensures CopyRegionMaps(t, reg, s) ==
        Regions(a.m.copies, b.m.copies, c.m.copies, c.m.ram, c.reg,
                a.missing + b.missing + c.missing)
  {
    a := SyncRegionMap(t.stackArea, Mirror(s.stackArea, s.ram), t.memory, reg, t.areas);
    SyncCarries(t.stackArea, Mirror(s.stackArea, s.ram), t.memory, reg, t.areas, t.linkerArea,
                s.linkerArea);
    SyncCarries(t.stackArea, Mirror(s.stackArea, s.ram), t.memory, reg, t.areas, t.addressSpace,
                s.addressSpace);
    b := SyncRegionMap(t.linkerArea, Mirror(s.linkerArea, a.m.ram), t.memory, a.reg, t.areas);
    SyncCarries(t.linkerArea, Mirror(s.linkerArea, a.m.ram), t.memory, a.reg, t.areas,
                t.addressSpace, s.addressSpace);
    c := SyncRegionMap(t.addressSpace, Mirror(s.addressSpace, b.m.ram), t.memory, b.reg, t.areas);
  }

  /** Dataspace sets drawn from disjoint old sets below `n0` and from
      disjoint ranges at or above it are disjoint. */
  lemma Separate(A: set<Cap>, oldA: set<Cap>, lo: nat, hi: nat, B: set<Cap>, oldB: set<Cap>,
                 lo2: nat, hi2: nat, n0: nat)
    requires forall x :: x in A ==> x in oldA || lo <= x < hi
    requires forall x :: x in B ==> x in oldB || lo2 <= x < hi2
    requires forall x :: x in oldA ==> x < n0
    requires forall x :: x in oldB ==> x < n0
    requires oldA !! oldB && n0 <= lo && n0 <= lo2 && (hi <= lo2 || hi2 <= lo)
    ensures A !! B
  {
  }

  /** A set drawn from an old set and a range at or above `n0` is disjoint
      from an old set below `n0` it was disjoint from. */
  lemma SeparateOld(A: set<Cap>, oldA: set<Cap>, lo: nat, hi: nat, B: set<Cap>, n0: nat)
    requires forall x :: x in A ==> x in oldA || lo <= x < hi
    requires forall x :: x in B ==> x < n0
    requires oldA !! B && n0 <= lo
    ensures A !! B
  {
  }

  lemma OldBelow(s: Snapshot, t: Target, reg: Registry)
    requires Consistent(t, reg, s)
    ensures forall x :: x in CapsOf(s.stackArea) ==> x < s.ram.next
    ensures forall x :: x in CapsOf(s.linkerArea) ==> x < s.ram.next
    ensures forall x :: x in CapsOf(s.addressSpace) ==> x < s.ram.next
  {
    OwnedCaps(Mirror(s.stackArea, s.ram));
    OwnedCaps(Mirror(s.linkerArea, s.ram));
    OwnedCaps(Mirror(s.addressSpace, s.ram));
  }

  /** The snapshot after `_copy_region_maps`, with the given thread list. */
  function After(r: Regions, threads: seq<ThreadInfo>): Snapshot {
    Snapshot(threads, r.addressSpace, r.stackArea, r.linkerArea, r.ram)
  }

  /** Where the dataspaces of each group come from after
      `_copy_region_maps`: each group keeps some of its own and draws new ones
      from the RAM session while it is being processed, the stack area first,
      the address space last. */
  lemma RegionMapsDrawInOrder(t: Target, reg: Registry, s: Snapshot) returns (n1: nat, n2: nat)
    requires Consistent(t, reg, s)
    ensures var r := CopyRegionMaps(t, reg, s);
      && s.ram.next <= n1 <= n2 <= r.ram.next
      && (forall x :: x in CapsOf(r.stackArea) ==> x in CapsOf(s.stackArea) || s.ram.next <= x < n1)
      && (forall x :: x in CapsOf(r.linkerArea) ==> x in CapsOf(s.linkerArea) || n1 <= x < n2)
      && (forall x :: x in CapsOf(r.addressSpace) ==>
            x in CapsOf(s.addressSpace) || n2 <= x < r.ram.next)
  {
    var a, b, c := RegionsParts(t, reg, s);
    SyncFrame(t.stackArea, Mirror(s.stackArea, s.ram), t.memory, reg, t.areas);
    SyncFrame(t.linkerArea, Mirror(s.linkerArea, a.m.ram), t.memory, a.reg, t.areas);
    SyncFrame(t.addressSpace, Mirror(s.addressSpace, b.m.ram), t.memory, b.reg, t.areas);
    n1, n2 := a.m.ram.next, b.m.ram.next;
  }

  /** New copy dataspaces are handed out group by group: every dataspace the
      stack area gains comes before every one the linker area gains, and those
      before every one the address space gains. */
  lemma RegionMapsAllocationOrder(t: Target, reg: Registry, s: Snapshot, x: Cap, y: Cap, z: Cap)
    requires Consistent(t, reg, s)
    requires x in CapsOf(CopyRegionMaps(t, reg, s).stackArea) - CapsOf(s.stackArea)
    requires y in CapsOf(CopyRegionMaps(t, reg, s).linkerArea) - CapsOf(s.linkerArea)
    requires z in CapsOf(CopyRegionMaps(t, reg, s).addressSpace) - CapsOf(s.addressSpace)
    ensures s.ram.next <= x < y < z < CopyRegionMaps(t, reg, s).ram.next
  {
    var n1, n2 := RegionMapsDrawInOrder(t, reg, s);
  }

  /** After `_copy_region_maps` every group is in line with its attached
      list and the snapshot is consistent again: a following checkpoint of an
      unchanged target may run. */
  lemma RegionMapsEstablish(t: Target, reg: Registry, s: Snapshot, threads: seq<ThreadInfo>)
    requires Consistent(t, reg, s)
    ensures var r := CopyRegionMaps(t, reg, s);
      && Reconciled(r.stackArea, t.stackArea, t.areas)
      && Reconciled(r.linkerArea, t.linkerArea, t.areas)
      && Reconciled(r.addressSpace, t.addressSpace, t.areas)
      && Consistent(t, r.reg, After(r, threads))
  {
    var a, b, c := RegionsParts(t, reg, s);
    var n1, n2 := RegionMapsDrawInOrder(t, reg, s);
    OldBelow(s, t, reg);
    var r := CopyRegionMaps(t, reg, s);
    SyncEstablishes(t.stackArea, Mirror(s.stackArea, s.ram), t.memory, reg, t.areas);
    SyncEstablishes(t.linkerArea, Mirror(s.linkerArea, a.m.ram), t.memory, a.reg, t.areas);
    SyncEstablishes(t.addressSpace, Mirror(s.addressSpace, b.m.ram), t.memory, b.reg, t.areas);
    SeparateOld(CapsOf(a.m.copies), CapsOf(s.stackArea), s.ram.next, n1, CapsOf(s.linkerArea),
                s.ram.next);
    SeparateOld(CapsOf(a.m.copies), CapsOf(s.stackArea), s.ram.next, n1, CapsOf(s.addressSpace),
                s.ram.next);
    SeparateOld(CapsOf(b.m.copies), CapsOf(s.linkerArea), n1, n2, CapsOf(s.addressSpace),
                s.ram.next);
    Separate(CapsOf(a.m.copies), CapsOf(s.stackArea), s.ram.next, n1, CapsOf(b.m.copies),
             CapsOf(s.linkerArea), n1, n2, s.ram.next);
    Separate(CapsOf(a.m.copies), CapsOf(s.stackArea), s.ram.next, n1, CapsOf(c.m.copies),
             CapsOf(s.addressSpace), n2, r.ram.next, s.ram.next);
    Separate(CapsOf(b.m.copies), CapsOf(s.linkerArea), n1, n2, CapsOf(c.m.copies),
             CapsOf(s.addressSpace), n2, r.ram.next, s.ram.next);
    // The stack area is carried over the linker area and the address space,
    // the linker area over the address space.
    SyncCarries(t.linkerArea, Mirror(s.linkerArea, a.m.ram), t.memory, a.reg, t.areas, t.stackArea,
                a.m.copies);
    SyncCarries(t.addressSpace, Mirror(s.addressSpace, b.m.ram), t.memory, b.reg, t.areas,
                t.stackArea, a.m.copies);
    SyncCarries(t.addressSpace, Mirror(s.addressSpace, b.m.ram), t.memory, b.reg, t.areas,
                t.linkerArea, b.m.copies);
  }

  /** `_copy_region_maps` loses no dataspace: what the RAM session holds
      beyond the copies' own dataspaces is the same before and after, so the
      dataspaces of dropped copies are released. */
  lemma RegionMapsNoLeak(t: Target, reg: Registry, s: Snapshot, threads: seq<ThreadInfo>)
    requires Consistent(t, reg, s)
    ensures var r := CopyRegionMaps(t, reg, s);
      r.ram.mem.Keys - AllCaps(After(r, threads)) == s.ram.mem.Keys - AllCaps(s)
  {
    var a, b, c := RegionsParts(t, reg, s);
    SyncNoLeak(t.stackArea, Mirror(s.stackArea, s.ram), t.memory, reg, t.areas);
    SyncNoLeak(t.linkerArea, Mirror(s.linkerArea, a.m.ram), t.memory, a.reg, t.areas);
    SyncNoLeak(t.addressSpace, Mirror(s.addressSpace, b.m.ram), t.memory, b.reg, t.areas);
    ChainNoLeak(s.ram.mem.Keys, a.m.ram.mem.Keys, b.m.ram.mem.Keys, c.m.ram.mem.Keys,
                CapsOf(s.stackArea), CapsOf(s.linkerArea), CapsOf(s.addressSpace),
                CapsOf(a.m.copies), CapsOf(b.m.copies), CapsOf(c.m.copies));
  }

  /** `_copy_region_maps` writes no RAM dataspace but the copies: every
      other dataspace keeps its bytes. */
  lemma RegionMapsKeepBytes(t: Target, reg: Registry, s: Snapshot)
    requires Consistent(t, reg, s)
    ensures var r := CopyRegionMaps(t, reg, s);
      forall x :: x in s.ram.mem && x !in AllCaps(s) ==>
        x in r.ram.mem && r.ram.mem[x] == s.ram.mem[x]
  {
    var a, b, c := RegionsParts(t, reg, s);
    SyncFrame(t.stackArea, Mirror(s.stackArea, s.ram), t.memory, reg, t.areas);
    SyncFrame(t.linkerArea, Mirror(s.linkerArea, a.m.ram), t.memory, a.reg, t.areas);
    SyncFrame(t.addressSpace, Mirror(s.addressSpace, b.m.ram), t.memory, b.reg, t.areas);
  }

  /** No group copies a region on dataspace `d`. */
  ghost predicate Unreached(t: Target, d: Cap) {
    && Untouched(t.stackArea, t.areas, d)
    && Untouched(t.linkerArea, t.areas, d)
    && Untouched(t.addressSpace, t.areas, d)
  }

  /** `_copy_region_maps` leaves the registry entry of a managed dataspace
      that no group copies exactly as it was. */
  lemma RegionMapsKeepRegistry(t: Target, reg: Registry, s: Snapshot, d: Cap)
    requires Consistent(t, reg, s)
    requires d in reg && Unreached(t, d)
    ensures var r := CopyRegionMaps(t, reg, s);
      d in r.reg && r.reg[d] == reg[d]
  {
    var a, b, c := RegionsParts(t, reg, s);
    SyncKeepsRegistry(t.stackArea, Mirror(s.stackArea, s.ram), t.memory, reg, t.areas, d);
    SyncKeepsRegistry(t.linkerArea, Mirror(s.linkerArea, a.m.ram), t.memory, a.reg, t.areas, d);
    SyncKeepsRegistry(t.addressSpace, Mirror(s.addressSpace, b.m.ram), t.memory, b.reg, t.areas, d);
  }

  /** Three steps that each keep what lies outside their own group keep what
      lies outside all groups. */
  lemma ChainNoLeak(K0: set<Cap>, K1: set<Cap>, K2: set<Cap>, K3: set<Cap>, A: set<Cap>,
                    B: set<Cap>, C: set<Cap>,
                    A': set<Cap>, B': set<Cap>, C': set<Cap>)
    requires K1 - A' == K0 - A && K2 - B' == K1 - B && K3 - C' == K2 - C
    ensures K3 - (A' + B' + C') == K0 - (A + B + C)
  {
    assert K1 - (A' + B + C) == K0 - (A + B + C) by {
      assert K1 - (A' + B + C) == (K1 - A') - (B + C);
      assert K0 - (A + B + C) == (K0 - A) - (B + C);
    }
    assert K2 - (A' + B' + C) == K1 - (A' + B + C) by {
      assert K2 - (A' + B' + C) == (K2 - B') - (A' + C);
      assert K1 - (A' + B + C) == (K1 - B) - (A' + C);
    }
    assert K3 - (A' + B' + C') == K2 - (A' + B' + C) by {
      assert K3 - (A' + B' + C') == (K3 - C') - (A' + B');
      assert K2 - (A' + B' + C) == (K2 - C) - (A' + B');
    }
  }

  /** `_copy_region_maps` reports exactly the reserved entries, in any group,
      as having no copy. */
  lemma RegionMapsMissing(t: Target, reg: Registry, s: Snapshot, k: RegionKey)
    requires Consistent(t, reg, s)
    ensures k in CopyRegionMaps(t, reg, s).missing <==>
      ReservedIn(t.stackArea, t.areas, k) || ReservedIn(t.linkerArea, t.areas, k) ||
      ReservedIn(t.addressSpace, t.areas, k)
  {
    var a, b, c := RegionsParts(t, reg, s);
    SyncMissing(t.stackArea, Mirror(s.stackArea, s.ram), t.memory, reg, t.areas, k);
    SyncMissing(t.linkerArea, Mirror(s.linkerArea, a.m.ram), t.memory, a.reg, t.areas, k);
    SyncMissing(t.addressSpace, Mirror(s.addressSpace, b.m.ram), t.memory, b.reg, t.areas, k);
  }

  /** Checkpointing the regions again against an unchanged target keeps
      every copy list, allocates nothing and frees nothing. */
  lemma RegionMapsIdempotent(t: Target, reg: Registry, s: Snapshot)
    requires Consistent(t, reg, s)
    ensures var r := CopyRegionMaps(t, reg, s);
      Consistent(t, r.reg, After(r, s.threads))
    ensures var r := CopyRegionMaps(t, reg, s);
      var r2 := CopyRegionMaps(t, r.reg, After(r, s.threads));
      && r2.stackArea == r.stackArea && r2.linkerArea == r.linkerArea
      && r2.addressSpace == r.addressSpace
      && r2.ram.next == r.ram.next && r2.ram.mem.Keys == r.ram.mem.Keys
  {
    RegionMapsEstablish(t, reg, s, s.threads);
    var r := CopyRegionMaps(t, reg, s);
    var s1 := After(r, s.threads);
    var a, b, c := RegionsParts(t, r.reg, s1);
    SyncStable(t.stackArea, Mirror(s1.stackArea, s1.ram), t.memory, r.reg, t.areas);
    SyncStable(t.linkerArea, Mirror(s1.linkerArea, a.m.ram), t.memory, a.reg, t.areas);
    SyncStable(t.addressSpace, Mirror(s1.addressSpace, b.m.ram), t.memory, b.reg, t.areas);
  }

  /** After `_copy_region_maps` every region that is copied has been, in all
      three groups: later groups neither overwrite the copies of earlier ones
      nor flag their pieces again. Only flags change in the registry. */
  lemma RegionMapsCopied(t: Target, reg: Registry, s: Snapshot)
    requires Consistent(t, reg, s)
    ensures var r := CopyRegionMaps(t, reg, s);
      && SameLayout(reg, r.reg)
      && GroupCopied(t.stackArea, r.stackArea, r.ram.mem, t.memory, r.reg, t.areas)
      && GroupCopied(t.linkerArea, r.linkerArea, r.ram.mem, t.memory, r.reg, t.areas)
      && GroupCopied(t.addressSpace, r.addressSpace, r.ram.mem, t.memory, r.reg, t.areas)
  {
    var a, b, c := RegionsParts(t, reg, s);
    var n1, n2 := RegionMapsDrawInOrder(t, reg, s);
    OldBelow(s, t, reg);
    SeparateOld(CapsOf(a.m.copies), CapsOf(s.stackArea), s.ram.next, n1, CapsOf(s.linkerArea),
                s.ram.next);
    SeparateOld(CapsOf(a.m.copies), CapsOf(s.stackArea), s.ram.next, n1, CapsOf(s.addressSpace),
                s.ram.next);
    SeparateOld(CapsOf(b.m.copies), CapsOf(s.linkerArea), n1, n2, CapsOf(s.addressSpace),
                s.ram.next);
    SyncCopied(t.stackArea, Mirror(s.stackArea, s.ram), t.memory, reg, t.areas);
    SyncKeepsCopied(t.linkerArea, Mirror(s.linkerArea, a.m.ram), t.memory, a.reg, t.areas,
                    t.stackArea, a.m.copies);
    SyncCopied(t.linkerArea, Mirror(s.linkerArea, a.m.ram), t.memory, a.reg, t.areas);
    SyncKeepsCopied(t.addressSpace, Mirror(s.addressSpace, b.m.ram), t.memory, b.reg, t.areas,
                    t.stackArea, a.m.copies);
    SyncKeepsCopied(t.addressSpace, Mirror(s.addressSpace, b.m.ram), t.memory, b.reg, t.areas,
                    t.linkerArea, b.m.copies);
    SyncCopied(t.addressSpace, Mirror(s.addressSpace, b.m.ram), t.memory, b.reg, t.areas);
    SameLayoutTransitive(reg, a.reg, b.reg);
    SameLayoutTransitive(reg, b.reg, c.reg);
  }

  /** The log entries for regions reported without a copy, in order: one
      per region, naming its dataspace. */
  function Diagnostics(missing: seq<RegionKey>): (log: seq<Diagnostic>)
    ensures |log| == |missing|
    ensures forall i :: 0 <= i < |missing| ==> log[i] == NoCopiedRegion(missing[i].ds)
    ensures forall x :: NoCopiedRegion(x) in log <==> exists k :: k in missing && k.ds == x
    ensures CapabilitiesNotImplemented !in log
  {
    if |missing| == 0 then [] else [NoCopiedRegion(missing[0].ds)] + Diagnostics(missing[1..])
  }

  /** An attached entry on dataspace `x` that the create pass skips. */
  ghost predicate ReservedDs(orig: seq<AttachedRegion>, areas: Areas, x: Cap) {
    exists j :: 0 <= j < |orig| && orig[j].ds == x && IsReserved(orig[j], areas)
  }

  /** The log of a checkpoint names exactly the dataspaces of the reserved
      areas attached into one of the three groups, after the capability
      stub's message. */
  lemma CheckpointLog(t: Target, reg: Registry, s: Snapshot, log: seq<Diagnostic>)
    requires Consistent(t, reg, s)
    requires log == [CapabilitiesNotImplemented] + Diagnostics(CopyRegionMaps(t, reg, s).missing)
    ensures CapabilitiesNotImplemented !in log[1..]
    ensures forall x :: NoCopiedRegion(x) in log <==>
      ReservedDs(t.stackArea, t.areas, x) || ReservedDs(t.linkerArea, t.areas, x) ||
      ReservedDs(t.addressSpace, t.areas, x)
  {
    var r := CopyRegionMaps(t, reg, s);
    assert log[1..] == Diagnostics(r.missing);
    forall x
      ensures NoCopiedRegion(x) in log <==>
        ReservedDs(t.stackArea, t.areas, x) || ReservedDs(t.linkerArea, t.areas, x) ||
        ReservedDs(t.addressSpace, t.areas, x)
    {
      assert NoCopiedRegion(x) in log <==> NoCopiedRegion(x) in log[1..];
      if NoCopiedRegion(x) in log {
        var k :| k in r.missing && k.ds == x;
        RegionMapsMissing(t, reg, s, k);
      }
      if ReservedDs(t.stackArea, t.areas, x) {
        ReservedKey(t.stackArea, t.areas, x, t, reg, s);
      } else if ReservedDs(t.linkerArea, t.areas, x) {
        ReservedKey(t.linkerArea, t.areas, x, t, reg, s);
      } else if ReservedDs(t.addressSpace, t.areas, x) {
        ReservedKey(t.addressSpace, t.areas, x, t, reg, s);
      }
    }
  }

  /** A reserved entry of a group is among the keys `_copy_region_maps`
      reports. */
  lemma ReservedKey(orig: seq<AttachedRegion>, areas: Areas, x: Cap, t: Target, reg: Registry,
                    s: Snapshot)
    requires Consistent(t, reg, s) && areas == t.areas
    requires orig == t.stackArea || orig == t.linkerArea || orig == t.addressSpace
    requires ReservedDs(orig, areas, x)
    ensures exists k :: k in CopyRegionMaps(t, reg, s).missing && k.ds == x
  {
    var j :| 0 <= j < |orig| && orig[j].ds == x && IsReserved(orig[j], areas);
    var k := orig[j].Key();
    assert ReservedIn(orig, areas, k);
    RegionMapsMissing(t, reg, s, k);
  }

  /** `checkpoint` (lines 223-234): threads, then the capability stub, then
      the region maps. The thread list gains this checkpoint's threads in
      front; every group ends up in line with its attached list with nothing
      leaked; every plain region's copy holds the region's bytes and no
      copied managed region keeps a flagged piece; no other RAM dataspace
      and no registry entry of a managed dataspace that no group copies
      changes; the log holds the stub's message and, for every reserved area
      attached into a group, the error naming its dataspace. */
  method Checkpoint(t: Target, reg: Registry, s: Snapshot)
    returns (s': Snapshot, reg': Registry, log: seq<Diagnostic>)
    requires Consistent(t, reg, s)
    ensures s'.threads == Reverse(t.threads) + s.threads
    ensures Reconciled(s'.stackArea, t.stackArea, t.areas)
    ensures Reconciled(s'.linkerArea, t.linkerArea, t.areas)
    ensures Reconciled(s'.addressSpace, t.addressSpace, t.areas)
    ensures Consistent(t, reg', s')
    ensures SameLayout(reg, reg')
    ensures GroupCopied(t.stackArea, s'.stackArea, s'.ram.mem, t.memory, reg', t.areas)
    ensures GroupCopied(t.linkerArea, s'.linkerArea, s'.ram.mem, t.memory, reg', t.areas)
    ensures GroupCopied(t.addressSpace, s'.addressSpace, s'.ram.mem, t.memory, reg', t.areas)
    ensures s'.ram.mem.Keys - AllCaps(s') == s.ram.mem.Keys - AllCaps(s)
    ensures forall x :: x in s.ram.mem && x !in AllCaps(s) ==>
      x in s'.ram.mem && s'.ram.mem[x] == s.ram.mem[x]
    ensures forall d :: d in reg && Unreached(t, d) ==> d in reg' && reg'[d] == reg[d]
    ensures |log| > 0 && log[0] == CapabilitiesNotImplemented
    ensures CapabilitiesNotImplemented !in log[1..]
    ensures forall x :: NoCopiedRegion(x) in log <==>
      ReservedDs(t.stackArea, t.areas, x) || ReservedDs(t.linkerArea, t.areas, x) ||
      ReservedDs(t.addressSpace, t.areas, x)
  {
    var threads := CopyThreads(t.threads, s.threads);
    var r := CopyRegionMaps(t, reg, s);
    RegionMapsEstablish(t, reg, s, threads);
    RegionMapsNoLeak(t, reg, s, threads);
    RegionMapsCopied(t, reg, s);
    RegionMapsKeepBytes(t, reg, s);
    forall d | d in reg && Unreached(t, d)
      ensures d in r.reg && r.reg[d] == reg[d]
    {
      RegionMapsKeepRegistry(t, reg, s, d);
    }
    log := [CapabilitiesNotImplemented] + Diagnostics(r.missing);
    CheckpointLog(t, reg, s, log);
    s' := After(r, threads);
    reg' := r.reg;
  }
}

=== FILE: threads.dfy ===
/** `_copy_threads`: one Thread_info per thread of the target, each
    inserted at the head of the checkpoint's thread list. */
module Threads {
  import opened Types

  /** Reference definition: the sequence back to front. */
  function Reverse(s: seq<ThreadInfo>): (r: seq<ThreadInfo>)
    ensures |r| == |s|
    ensures forall i :: 0 <= i < |s| ==> r[i] == s[|s| - 1 - i]
  {
    if |s| == 0 then [] else Reverse(s[1..]) + [s[0]]
  }

  /** Inserting at the head in list order reverses the threads in front of
      the checkpoint's existing entries, which are kept: nothing is removed
      or merged, so each checkpoint adds one entry per thread. */
  method CopyThreads(threads: seq<ThreadInfo>, copied: seq<ThreadInfo>) returns (r: seq<ThreadInfo>)
    ensures r == Reverse(threads) + copied
  {
    r := copied;
    var i := 0;
    while i < |threads|
      invariant 0 <= i <= |threads|
      invariant r == Reverse(threads[..i]) + copied
    {
      assert threads[..i + 1][1..] == threads[1..i + 1];
      ReversePrefixStep(threads, i);
      r := [ThreadInfo(threads[i].threadCap)] + r;
      i := i + 1;
    }
    assert threads[..i] == threads;
  }

  /** Reversing one more element of a prefix puts it in front. */
  lemma ReversePrefixStep(s: seq<ThreadInfo>, i: nat)
    requires i < |s|
    ensures Reverse(s[..i + 1]) == [s[i]] + Reverse(s[..i])
  {
    var a := Reverse(s[..i + 1]);
    var b := [s[i]] + Reverse(s[..i]);
    assert |a| == |b|;
    forall k | 0 <= k < |a|
      ensures a[k] == b[k]
    {
      if k > 0 {
        assert b[k] == Reverse(s[..i])[k - 1];
      }
    }
  }

  function Count(s: seq<ThreadInfo>, t: ThreadInfo): nat {
    multiset(s)[t]
  }

  /** Reversal is a permutation. */
  lemma {:induction false} ReversePermutes(s: seq<ThreadInfo>)
    ensures multiset(Reverse(s)) == multiset(s)
  {
    if |s| > 0 {
      ReversePermutes(s[1..]);
      assert s == [s[0]] + s[1..];
    }
  }

  /** Two checkpoints of the same threads hold every thread twice more than
      the list they started from. */
  lemma CheckpointTwiceDuplicates(threads: seq<ThreadInfo>, copied: seq<ThreadInfo>, t: ThreadInfo)
    ensures Count(Reverse(threads) + (Reverse(threads) + copied), t) ==
        2 * Count(threads, t) + Count(copied, t)
  {
    ReversePermutes(threads);
  }
}

=== FILE: types.dfy ===
/** The records the checkpoint engine of Target_copy works on.

    Capabilities are opaque identities, so they are plain naturals here;
    Genode's intrusive lists become sequences in list order (head first). */
module Types {

  type Byte = bv8

  /** A dataspace capability (Genode::Dataspace_capability). */
  type Cap = nat

  /** An address relative to the base of a region map. */
  type Addr = nat

  /** Contents of dataspaces, by capability. */
  type Memory = map<Cap, seq<Byte>>

  datatype Option<+T> = None | Some(value: T)

  /** The identity of a region inside one region map: which dataspace is
      attached, and where. */
  datatype RegionKey = RegionKey(ds: Cap, relAddr: Addr)

  /** Attached_region_info: a dataspace the target has attached. */
  datatype AttachedRegion = AttachedRegion(ds: Cap, relAddr: Addr, size: nat) {
    function Key(): RegionKey { RegionKey(ds, relAddr) }
  }

  /** Copied_region_info: the checkpoint's mirror of one attached region,
      backed by a dataspace of its own. */
  datatype CopiedRegion = CopiedRegion(origDs: Cap, relAddr: Addr, copyDs: Cap, managed: bool) {
    function Key(): RegionKey { RegionKey(origDs, relAddr) }
  }

  /** Designated_dataspace_info: one piece of a managed dataspace.
      `attached` means the piece holds content not yet copied. */
  datatype DesignatedDataspace = DesignatedDataspace(ds: Cap, relAddr: Addr, size: nat,
                                                     attached: bool)

  /** Managed_region_map_info: the pieces that make up one managed dataspace. */
  datatype ManagedRegionMap = ManagedRegionMap(dds: seq<DesignatedDataspace>)

  /** The managed dataspaces among the target's RAM dataspaces, by capability;
      a dataspace absent from it is not managed. */
  type Registry = map<Cap, ManagedRegionMap>

  /** Thread_info: only the thread capability is kept. */
  datatype ThreadInfo = ThreadInfo(threadCap: nat)

  /** The stack-area and linker-area dataspaces, which the target attaches
      into its address space and which have region groups of their own. */
  datatype Areas = Areas(stackDs: Cap, linkerDs: Cap)

  predicate IsReserved(o: AttachedRegion, areas: Areas) {
    o.ds == areas.stackDs || o.ds == areas.linkerDs
  }

  /** No two entries of the list share a key. */
  ghost predicate UniqueKeys(copies: seq<CopiedRegion>) {
    forall i, j :: 0 <= i < j < |copies| ==> copies[i].Key() != copies[j].Key()
  }

  ghost predicate UniqueAttachedKeys(orig: seq<AttachedRegion>) {
    forall i, j :: 0 <= i < j < |orig| ==> orig[i].Key() != orig[j].Key()
  }

  /** No two entries of the list share a backing dataspace. */
  ghost predicate DistinctCaps(copies: seq<CopiedRegion>) {
    forall i, j :: 0 <= i < j < |copies| ==> copies[i].copyDs != copies[j].copyDs
  }

  /** The backing dataspaces of a copy list. */
  function CapsOf(copies: seq<CopiedRegion>): set<Cap> {
    set c | c in copies :: c.copyDs
  }

  predicate HasAttached(orig: seq<AttachedRegion>, k: RegionKey) {
    exists j :: 0 <= j < |orig| && orig[j].Key() == k
  }

  predicate HasCopy(copies: seq<CopiedRegion>, k: RegionKey) {
    exists j :: 0 <= j < |copies| && copies[j].Key() == k
  }
}
